=== FILE: README.md ===
# jqPresentation navigation, modelled in Dafny

This project models the navigation core of jqPresentation, a jQuery slide presenter. A presentation is an ordered list of slides. Each slide has items that are revealed one at a time. The position shown is a slide index plus a count of displayed items, and it is written to and read back from the URL fragment. The main model follows `Source/jqPresentation.js`. The earlier variant `Source/jQuery.Presentation.js` is modelled alongside it for comparison.

## Modules

- `JsBasics` (`js_basics.dfy`): the JavaScript behaviour the code relies on:
  - the truncating remainder `%`;
  - the character classes of both regular expressions;
  - greedy runs and the first-digit search;
  - `parseInt` of a digit string and number-to-string conversion.
- `Optional` (`optional.dfy`): `Option`.
- `Slides` (`slides.dfy`): one slide's item-reveal state machine (`doStep`, `stepBack`, `stepForward`, `moveTo`, `moveBy`, `jumpTo`, `clear`, `fill`).
  - The animator is abstract. Each reveal or conceal step waits for a completion event, and that event re-enters `DoStep`.
  - An operation returns a `Request` that the owning presentation carries out: refresh the hash, or move to a neighbouring slide.
- `Navigation` (`navigation.dfy`), used by both variants:
  - wraparound of negative slide indices;
  - the rule that decides which slides are filled when a move arrives;
  - the visibility-culling band.
- `HashCodec` (`hash_codec.dfy`): the `idMap` identifier table, `parseHash`, `getHash`, and what `location.hash` reads after a write.
- `Presentation` (`presentation.dfy`): the presentation of `jqPresentation.js` as pure transitions over an immutable record.
  - The record holds the slides, the current slide, the nestable `hashSuppressionCount`, `location.hash`, the log of history calls, and `idMap`.
  - A history call is either `Replace` (`location.replace`) or `Assign` (`location.hash =`).
  - The logical commands are: item step, slide step, Home, End, an animation completion, and a `hashchange`.
- `PresentationProps` (`presentation_props.dfy`): the properties across events.
- `Legacy` and `LegacyProps` (`legacy.dfy`, `legacy_props.dfy`): the earlier presenter. It reuses the same slide machine and the same `slideMoveTo` settling, but has its own per-slide `updateHash`, an unanchored numeric `parseHash`, and no suppression counter.

## Model decisions

- A move that lands in a state outside the model's domain ends the run. `Step` requires `Ready`: the current slide is real and every displayed count is within its slide. The invariant `Inv` adds slide validity, a zero suppression counter, and an `idMap` built from the document. A `hashchange` keeps it when the count it names fits the slide it leaves current (`Admissible`). That slide is the named one, or the current one when no slide has that index, because `slideMoveTo` then returns without moving.
- Before the first `slideMoveTo`, the current slide is the placeholder slide of the prototype, with index -1. The model writes this as `currentSlide == -1`.
- `parseHash` reads every fragment that does not fit its pattern as slide 0, item 0 (`Source/jqPresentation.js:222-223`): it never fails on a malformed fragment. A well-formed fragment whose identifier is not in `idMap` is the one exception. There `parseHash` throws a TypeError (`Source/jqPresentation.js:231`), because it reads `.slide` of `undefined`.
  - The main model follows the rule of line 223 for this case as well, and reads such a hash as the start (`Locate`).
  - The code as written is modelled by `ParseHash` returning `None`, and by `HashChangeAsWritten`, `UpdateHashAsWritten` and `ConstructAsWritten`. See Findings.

## Model

| member | source | states |
|---|---|---|
| JsBasics.JsRem | Source/jqPresentation.js:297-298 | JavaScript `%` for a positive divisor: the dividend is the truncated quotient times the divisor plus the result, and the result has the sign of the dividend and lies strictly between -n and n. So it is the dividend itself when that is already in range, and 0 at exactly -n. |
| JsBasics.FirstDigit | Source/jQuery.Presentation.js:203 | where the unanchored pattern starts to match: no digit before the returned index, and a digit at it unless the string has none |
| JsBasics.NatToDecimal | Source/jqPresentation.js:246 | the decimal text JavaScript gives an index is non-empty, all digits, has no leading zero, and reads back as the same number |
| Slides.Initial | Source/jqPresentation.js:18 | the slide constructor's `clear()` leaves a valid, settled slide with no item shown |
| Slides.StepBack | Source/jqPresentation.js:45-57 | conceals item `currentIndex-1`, lowers the count by exactly one and marks the slide animating; at count 0 it asks for the previous slide |
| Slides.StepForward | Source/jqPresentation.js:58-70 | reveals item `currentIndex`, raises the count by exactly one and marks the slide animating |
| Slides.DoStep | Source/jqPresentation.js:32-44 | a target outside the slide hands the move to the presentation. Otherwise exactly one item moves toward the target and the distance drops by one, or the loop stops once the target is reached. Validity is kept, and a valid slide never asks to change slide. |
| Slides.MoveTo | Source/jqPresentation.js:75-87 | a count below 0 or above `items.length` asks for the previous or next slide and leaves the slide alone. Otherwise the target is set, the loop starts only when no step is running, and validity is kept. |
| Slides.MoveBy | Source/jqPresentation.js:72-74 | relative to the target count, not the displayed count; the same out-of-range delegation as `moveTo`; keeps validity |
| Slides.JumpTo | Source/jqPresentation.js:88-100 | sets both counts to the index and shows exactly the items before it, without the animator; it reports a change exactly when the count differs, and otherwise changes nothing |
| Slides.ClearFillAreJumps | Source/jqPresentation.js:102-117 | `clear` and `fill` are `jumpTo(0)` and `jumpTo(items.length)` |
| Slides.JumpToKeepsValid | Source/jqPresentation.js:88-92 | a jump to a real count keeps the slide valid |
| Slides.JumpToIdempotent | Source/jqPresentation.js:90 | a second jump to the same index changes nothing |
| Slides.DriveForward | Source/jqPresentation.js:32-44 | a slide below its target settles at the target after exactly distance+1 completions, revealing the items in order, one per completion |
| Slides.DriveBackward | Source/jqPresentation.js:32-57 | the mirror case: items are concealed from the last one down, one per completion |
| Slides.MoveToSettles | Source/jqPresentation.js:75-87 | `moveTo(t)` on a settled slide, followed by its completions, leaves the slide settled at `t` |
| Slides.MoveWhileAnimatingIsAbsorbed | Source/jqPresentation.js:72-87 | while a step runs, `moveBy` only shifts the target; the running loop picks it up and no second loop starts |
| Navigation.Wrap | Source/jqPresentation.js:297-298 | a non-negative index is kept; a negative one wraps to the index in (0, len] that differs from it by a multiple of len (`len + t % len` with the truncating `%`) |
| Navigation.OnStageBands | Source/jqPresentation.js:306-321 | a slide stays in the layout exactly when it lies within the move's range widened by one and within five of one of the range's ends |
| Navigation.EndpointsStayOnStage | Source/jqPresentation.js:306-321 | the old and the new slide, and their neighbours, always stay in the layout |
| Navigation.WrapFromEnd | Source/jQuery.Presentation.js:229-233 | `slideMoveTo(-k)` for `1 <= k < len` lands on `len - k` |
| Navigation.WrapMinusLengthMisses | Source/jqPresentation.js:297-301 | `slideMoveTo(-len)` computes `len`, which names no slide, so nothing happens |
| HashCodec.ParseHash | Source/jqPresentation.js:212-234 | an exact `idMap` key wins; a fragment that does not fit the pattern reads as (0,0); the result is missing exactly when the token is an identifier the table lacks |
| HashCodec.Locate | Source/jqPresentation.js:222-223 | the position `parseHash` reads, with an unknown identifier read as the start |
| HashCodec.GetHash | Source/jqPresentation.js:241-257 | the fragment is empty exactly at slide 0 with nothing shown |
| HashCodec.LocationHashOf | Source/jqPresentation.js:262-272 | `location.hash` reads "" after an empty fragment is written, and otherwise `#` followed by the fragment |
| HashCodec.IdMapFindsSlide | Source/jqPresentation.js:135-136 | in a document with distinct, well-formed ids, a slide's id maps to that slide with count 0 |
| HashCodec.IdMapFindsItem | Source/jqPresentation.js:138-142 | the id of item `j` maps to its slide with count `j+1`, the count that shows it |
| HashCodec.IdMapKeys | Source/jqPresentation.js:131-144 | every key of the table has the identifier form |
| HashCodec.LeadingName | Source/jqPresentation.js:221 | an identifier followed by nothing or by `/` is the pattern's first alternative, taken whole |
| HashCodec.LeadingNumber | Source/jqPresentation.js:221 | a run of digits followed by nothing or by `/` is the pattern's second alternative, taken whole |
| HashCodec.ItemSuffixReads | Source/jqPresentation.js:221-232 | `/`, white space and digits read as that count |
| HashCodec.ParseNumbered | Source/jqPresentation.js:221-233 | `#n` reads as slide n, count 0 |
| HashCodec.ParseNumberedItem | Source/jqPresentation.js:221-233 | `#n/ m` reads as slide n, count m |
| HashCodec.ParseNamedItem | Source/jqPresentation.js:221-233 | `#id/ m` reads as the id's slide with count m, and fails when the id is not in the table |
| HashCodec.MatchFragmentShape | Source/jqPresentation.js:221 | the converse of the reading lemmas: every fragment the anchored pattern accepts is `#`, then the captured token (an identifier, or digits with the captured value), then either nothing (count 0) or `/`, white space and the count's non-empty digits, up to the end |
| HashCodec.GetHashRoundTrip | Source/jqPresentation.js:212-257 | in a document with distinct, well-formed ids, the fragment written for any position reads back as that position, both as `"#" + hash` and through `location.hash` |
| Presentation.UpdateHash | Source/jqPresentation.js:258-276 | writes nothing while suppressed or when the bar already shows the fragment. Otherwise it writes the fragment: `Replace` when the bar's slide is the current slide, `Assign` when it is not. |
| Presentation.BeginNavigation | Source/jqPresentation.js:235-240 | opens a navigation: raises the suppression counter by one and changes nothing else; inside it `updateHash` writes nothing, and `endNavigation(true)` closes it back to the state before |
| Presentation.EndNavigation | Source/jqPresentation.js:236-240 | lowers the counter by one; it refreshes the hash only when asked to and the counter reaches zero |
| Presentation.Arrive | Source/jqPresentation.js:306-322 | after a move, a slide shows all of its items or none, by the arrival rule, and its layout flag follows the culling rule; validity is kept |
| Presentation.SettleFrom | Source/jqPresentation.js:303-322 | the loop of `slideMoveTo` settles each remaining slide by `Arrive`; it runs suppressed, so the address bar is untouched |
| Presentation.SlideMoveTo | Source/jqPresentation.js:296-335 | a wrapped index that names no slide changes nothing. Otherwise every slide is settled, the target becomes current, the counter is unchanged, and the hash is refreshed once at the end. |
| Presentation.SlideMoveBy | Source/jqPresentation.js:291-301 | below slide 0 nothing happens, otherwise it is `slideMoveTo(index + offset)`; a target past the last slide changes nothing, any other lands exactly `offset` slides away, and the presentation stays ready on the same document |
| Presentation.RunRequest | Source/jqPresentation.js:45-81 | a reveal or conceal refreshes the hash and leaves every slide and the current slide alone; a slide change is exactly `slideMoveBy(offset)`; readiness and validity are kept |
| Presentation.ItemMoveTo | Source/jqPresentation.js:186-187 | keeps readiness, validity and the document; the address bar is either untouched or refreshed (its effect on the slides is `ItemMoveToEffect`) |
| Presentation.ItemMoveBy | Source/jqPresentation.js:347-349 | the same, for `currentSlide.moveBy` |
| Presentation.Complete | Source/jqPresentation.js:45-70 | an animation completion re-enters the slide's loop; the same guarantees as `ItemMoveTo` (its effect is `CompleteEffect`) |
| PresentationProps.ItemMoveToEffect | Source/jqPresentation.js:75-87 | a count below 0 or past the current slide's items is exactly `slideMoveBy(-1)` or `slideMoveBy(1)`; any other count becomes the current slide's target, the loop starts only when no step is running, the current slide stays current and no other slide changes |
| PresentationProps.ItemMoveByEffect | Source/jqPresentation.js:347-349 | the same at the current target plus `offset`, so presses made during a running step add up |
| PresentationProps.CompleteEffect | Source/jqPresentation.js:32-70 | the completion of a valid slide's step is that slide's next `doStep`, with no other slide touched and no slide change |
| Presentation.JumpCurrentTo | Source/jqPresentation.js:88-100 | only the current slide changes, exactly as `jumpTo` changes it |
| Presentation.EndKey | Source/jqPresentation.js:185-190 | End keeps readiness, validity and the document, and leaves the address bar untouched or refreshed |
| Presentation.SeekSlide | Source/jqPresentation.js:196-197 | inside the handler's navigation, moves to the named slide unless it is current; an index past the last slide leaves the current slide, and nothing is written |
| Presentation.HashChange | Source/jqPresentation.js:193-200 | never writes history. It moves to the named slide when that slide exists, shows the named count, and leaves the counter as it was. |
| Presentation.Step | Source/jqPresentation.js:174-200 | every event keeps the document and the counter; every event except `hashchange` keeps readiness and validity, refreshes the address bar at most once, and writes nothing while suppressed |
| Presentation.Unsettled | Source/jqPresentation.js:122-144 | before the first move: each slide is its shape's initial slide (every item hidden, valid, settled), the placeholder is current, one navigation is open, the history is empty, and `idMap` is built from the document |
| Presentation.Construct | Source/jqPresentation.js:120-160 | there is a presentation exactly when the opening hash names an existing slide. It then shows that slide, the counter is closed, nothing was written, and the table is built from the document. |
| Presentation.HashChangeAsWritten | Source/jqPresentation.js:193-200 | when `parseHash` fails, the handler stops after `beginNavigation`: the counter stays raised, so `updateHash` is frozen, and nothing is written; otherwise it is the handler |
| Presentation.UpdateHashAsWritten | Source/jqPresentation.js:258-272 | a failing `parseHash` of the current hash stops the write |
| Presentation.StepAsWritten | Source/jqPresentation.js:193-200 | while suppressed, no event writes history or closes the counter |
| PresentationProps.CurrentHashRoundTrip | Source/jqPresentation.js:241-270 | the fragment the presentation writes reads back as the displayed position |
| PresentationProps.OutcomeKeepsSync | Source/jqPresentation.js:258-272 | after an untouched or refreshed address bar, the bar names the displayed position |
| PresentationProps.OutcomeHistory | Source/jqPresentation.js:267-271 | a change of slide adds exactly one `Assign` of the new fragment; a move within a slide adds nothing or one `Replace` |
| PresentationProps.HashChangeKeepsValid | Source/jqPresentation.js:193-200 | a `hashchange` keeps every slide valid whenever its count fits the slide it leaves current: the named slide, or the current one when no slide has that index |
| PresentationProps.StepKeepsInv | Source/jqPresentation.js:174-200 | every admissible event keeps the invariant, including a `hashchange` that names a missing slide |
| PresentationProps.StepKeepsSync | Source/jqPresentation.js:174-200 | every admissible event whose new hash, if any, names an existing slide leaves the address bar naming the displayed position |
| PresentationProps.MissingSlideLosesSync | Source/jqPresentation.js:193-200 | a hash such as `#99` that names no existing slide keeps the current slide, shows the named count on it and keeps the invariant, but leaves the bar naming a slide that is not shown, with nothing written |
| PresentationProps.StepHistory | Source/jqPresentation.js:258-272 | `hashchange` never writes. Any other event adds one `Assign` exactly when it changes slides, and otherwise at most one `Replace`. |
| PresentationProps.EchoIsNoOp | Source/jqPresentation.js:193-198 | the `hashchange` caused by the presenter's own write changes nothing |
| PresentationProps.BackToStart | Source/jqPresentation.js:193-200 | returning to the empty hash of the start shows slide 0 with nothing shown, keeping the invariant and the sync |
| PresentationProps.RunKeepsInvAndSync | Source/jqPresentation.js:167-192 | any run of keys, wheel turns and completions keeps the invariant and the sync, and adds at most one history entry per event |
| PresentationProps.SlideMoveToLayout | Source/jqPresentation.js:306-327 | after a move to `t`: earlier slides are full and later ones empty. `t` is full exactly when approached from a later slide. The old and new slides and their neighbours stay in the layout. |
| PresentationProps.EndKeyGoesToLastSlide | Source/jqPresentation.js:185-189 | End away from the last slide lands on the last slide, which is empty, and every earlier slide is full |
| PresentationProps.EndKeyOnLastSlide | Source/jqPresentation.js:186-187 | End on the last slide targets all of its items |
| PresentationProps.ConstructState | Source/jqPresentation.js:153-160 | the constructor shows the named position, with earlier slides full and later ones empty; it keeps the invariant and starts in sync with the address bar |
| PresentationProps.UnknownIdFails | Source/jqPresentation.js:231 | `#nosuch/1` names an identifier that the table lacks, and `parseHash` as written fails on it |
| PresentationProps.SuppressedRunWritesNothing | Source/jqPresentation.js:259 | while the counter is raised, no sequence of events writes history |
| PresentationProps.UnknownIdFreezesHistory | Source/jqPresentation.js:193-200 | as written, a hash naming an unknown identifier leaves the counter raised, and no later event writes history |
| PresentationProps.UnknownIdFailsClosed | Source/jqPresentation.js:193-200 | corrected, such a hash reads as the start, closes the navigation and keeps the invariant and the sync |
| PresentationProps.UnknownIdAtOpening | Source/jqPresentation.js:153-159 | as written (`ConstructAsWritten`: the constructor with the initial `parseHash` allowed to throw), a page opened at `#nosuch` gets no presentation; corrected, it opens at the start |
| Legacy.Fragment | Source/jQuery.Presentation.js:115-126 | the fragment is empty exactly at slide 0 with nothing shown |
| Legacy.LegacyParse | Source/jQuery.Presentation.js:202-209 | there is a result exactly when the hash contains a digit |
| Legacy.SlideUpdateHash | Source/jQuery.Presentation.js:115-126 | only the current slide writes, always by assignment, and the bar then shows its fragment |
| Legacy.LSettleFrom | Source/jQuery.Presentation.js:237-253 | settles each slide by `Arrive`; the old current slide writes its hash when settling changes its count |
| Legacy.LSettleOne | Source/jQuery.Presentation.js:242-252 | one pass of the loop: the slide becomes its `Arrive` state, and only the old current slide adds its fragment to history |
| Legacy.LSlideMoveTo | Source/jQuery.Presentation.js:228-262 | like the later version, but it writes the old slide's intermediate fragment, if any, and then the new slide's fragment |
| Legacy.LSlideMoveBy | Source/jQuery.Presentation.js:223-233 | below slide 0 or past the last slide nothing happens; any other move lands exactly `offset` slides away with the bar naming the new position, and the presentation stays ready |
| Legacy.LRunRequest | Source/jQuery.Presentation.js:41-66 | a reveal or conceal makes the stepping slide write its own hash and leaves every slide and the current slide alone; a slide change is exactly `slideMoveBy(offset)` |
| Legacy.LItemMoveTo | Source/jQuery.Presentation.js:68-83 | keeps readiness, validity and the sync (its effect on the slides is `LItemMoveToEffect`) |
| Legacy.LComplete | Source/jQuery.Presentation.js:41-66 | a completion keeps readiness, validity and the sync (its effect is `LCompleteEffect`) |
| LegacyProps.LItemMoveToEffect | Source/jQuery.Presentation.js:71-83 | the earlier `moveTo`: out-of-range counts are exactly `slideMoveBy(-1)` or `slideMoveBy(1)`; any other count becomes the target, the loop starts only when idle, and no other slide changes |
| LegacyProps.LCompleteEffect | Source/jQuery.Presentation.js:28-66 | the completion of a valid slide's step is that slide's next `doStep`, with no other slide touched and no slide change |
| Legacy.LJumpCurrentTo | Source/jQuery.Presentation.js:84-96 | a jump that changes the count writes its fragment; otherwise nothing changes |
| Legacy.LSeekSlide | Source/jQuery.Presentation.js:189-190 | moves to the named slide unless it is current; readiness, validity and the slides' shapes are kept |
| Legacy.LEndKey | Source/jQuery.Presentation.js:177-182 | End keeps readiness, validity and the sync (where it lands is `LEndKeyGoesToLastSlide` and `LEndKeyOnLastSlide`) |
| LegacyProps.LEndKeyGoesToLastSlide | Source/jQuery.Presentation.js:177-182 | End away from the last slide lands on the last slide, which is empty, and every earlier slide is full |
| LegacyProps.LEndKeyOnLastSlide | Source/jQuery.Presentation.js:177-180 | End on the last slide targets all of its items |
| Legacy.LHashChange | Source/jQuery.Presentation.js:185-192 | a hash without digits changes nothing but the bar |
| Legacy.LStep | Source/jQuery.Presentation.js:166-192 | every event except `hashchange` keeps readiness, validity and the sync |
| Legacy.LegacyConstruct | Source/jQuery.Presentation.js:146-152 | a hash without digits opens slide 0; there is a presentation exactly when the named slide exists, and the bar then shows its fragment |
| Legacy.LOpen | Source/jQuery.Presentation.js:147-151 | from the placeholder, there is a presentation exactly when the slide exists; it then shows that slide and the bar names it |
| LegacyProps.LegacyRoundTrip | Source/jQuery.Presentation.js:202-209 | every fragment other than the start's reads back as the position that wrote it |
| LegacyProps.LegacyParseReads | Source/jQuery.Presentation.js:202-209 | for any hash that contains a digit (digit-free text, a digit run, then text not starting with a digit), the slide is the value of that first digit run and the count is read from the text after it alone |
| LegacyProps.LegacyCountShape | Source/jQuery.Presentation.js:203-207 | the count group reads: an optional `/`, the longest run of white space, then the longest run of digits; its value is those digits' value, 0 when there are none, whatever text follows |
| LegacyProps.LegacyParseShape | Source/jQuery.Presentation.js:202-209 | the two together: digit-free text, slide digits, optional `/`, white space, count digits and any non-extending tail read as (slide digits, count digits) |
| LegacyProps.LegacyBackToStartIgnored | Source/jQuery.Presentation.js:185-192 | the start writes the empty fragment, so going back to it is ignored and the bar no longer names the slide shown |
| LegacyProps.LegacyEchoIsNoOp | Source/jQuery.Presentation.js:185-192 | the `hashchange` that echoes the presenter's own write changes nothing |
| LegacyProps.LegacyNextSlideWrites | Source/jQuery.Presentation.js:241-261 | Page Down from a slide that still hides items writes two fragments (the old slide full, then the new slide empty); from a full slide it writes one |
| LegacyProps.LegacyBackWritesThrice | Source/jQuery.Presentation.js:185-192 | the Back button to an earlier slide writes three new history entries |
| LegacyProps.LHashChangeKeepsValid | Source/jQuery.Presentation.js:185-192 | a `hashchange` keeps every slide valid whenever its count fits the slide it leaves current: the named slide, or the current one when no slide has that index |
| LegacyProps.LRunKeepsValidAndSync | Source/jQuery.Presentation.js:159-184 | any run of keys, wheel turns and completions keeps validity and the sync |

## Findings

| source | as written | input that shows it | evidently intended | confidence | as-written member | corrected member |
|---|---|---|---|---|---|---|
| Source/jqPresentation.js:231 | `parseHash` reads `.slide` of `idMap[match[1]]` without checking that the key exists, so an identifier that is not in the table throws a TypeError. The `hashchange` handler has already called `beginNavigation` (line 194), so the counter never returns to zero and `updateHash` never writes again. On opening, the constructor fails. | `#nosuch/1`, or `#nosuch`, in a document without that id | a fragment that names no position reads as the start, as it does for any other fragment that does not fit the pattern | not executed; high | PresentationProps.UnknownIdFreezesHistory | PresentationProps.UnknownIdFailsClosed |
| Source/jQuery.Presentation.js:185-192 | the start position writes the empty fragment, and `parseHash` reports `false` for it, so the `hashchange` handler ignores it | the Back button from slide 3 to the entry of the start | the presentation returns to the start, as the later version does | not executed; high | LegacyProps.LegacyBackToStartIgnored | PresentationProps.BackToStart |
| Source/jQuery.Presentation.js:185-192 | nothing suppresses hash writes during the `hashchange` handler, so the slides it settles and jumps write new history entries | the Back button from slide 3, with an item shown, to the entry `#2` of a slide with items | a `hashchange` writes no history, as the later version guarantees with its suppression counter | not executed; high | LegacyProps.LegacyBackWritesThrice | PresentationProps.StepHistory |

## Left out

- Layout, document title, DOM construction, the slide-number labels and container wrapping are not modelled. These are `updateSize`, `updateLayout`, the title update and the element creation. They affect only geometry and text, never the navigation state. Culling is kept, as the `onStage` flag.
- Raw event binding is not modelled: key codes, mouse-wheel deltas and window resize. Only the logical commands they produce are.
- The animation table, jQuery UI effect registration and `getAnimation` are not modelled. An animation is an abstract completion event; its timing and effect name do not matter for navigation.
- The `$.fn.presentation` plugin cache is not modelled.
- The scroll-position save and restore and the console logging in `updateHash` are not modelled.
- Real browser history is not modelled. History is a log of the calls made on `location`. The browser's treatment of an assignment of the hash it already shows, and its asynchronous delivery of `hashchange`, are not modelled. A `hashchange` is an event the caller supplies.
- Percent-encoding of fragments by the browser is not modelled. Ids are compared as written.
- JsBasics.DecimalValue: `parseInt` is exact here. JavaScript's loss of precision above 2^53 is not modelled.
- HashCodec.MapOf: `idMap` is a plain object in the source, so keys inherited from `Object.prototype`, such as `constructor`, would also be found. The model's table holds only the document's ids.
- Presentation.Step: defined on `Ready` states. A `hashchange` naming a count beyond the items of the slide it leaves current leads to an unclamped `jumpTo`, after which the source's behaviour depends on out-of-range item access. The invariant lemmas therefore require `Admissible`, and a run stops at a state outside `Ready`.
- PresentationProps.StepKeepsSync: does not promise the sync after a `hashchange` that names a missing slide, because the source loses it there: `slideMoveTo` returns at line 301 and the bar keeps naming the missing slide (`MissingSlideLosesSync`).
- Presentation.Step: a completion for a slide that is not animating is ignored. Under the model such a completion cannot arrive, because every animating slide has exactly one outstanding completion.
- Legacy.LegacyConstruct: returns `None` when the opening hash names a slide that does not exist. The source then keeps the placeholder slide current and goes on; what its later events do from there is not modelled.
- Legacy.LHashChange: no invariant is stated for a `hashchange` whose count exceeds the items of the slide it leaves current, for the same reason as in the later version.

=== FILE: hash_codec.dfy ===
/**
  The address-fragment codec of `jqPresentation.js`: the identifier table
  built from the document (`idMap`), `parseHash`, which reads a position
  out of `location.hash`, and `getHash`, which writes the current position
  as a fragment.  A position is a slide index and a count of displayed
  items.
 */
module HashCodec {
  import opened JsBasics
  import opened Optional
  import opened Slides

  /** A position: a slide index and the number of items displayed on it. */
  datatype Locator = Locator(slide: nat, item: nat)

  // -----------------------------------------------------------------------
  // The identifier table

  /** One assignment `idMap[id] = at` made while the table is built. */
  datatype IdEntry = IdEntry(id: string, at: Locator)

  /** The assignments for the items of slide `slide`, in document order: the
      item at position `j` maps to `j + 1`, the count that displays it. */
  function ItemEntries(slide: nat, itemIds: seq<string>): seq<IdEntry>
    decreases |itemIds|
  {
    if |itemIds| == 0 then []
    else
      var j := |itemIds| - 1;
      ItemEntries(slide, itemIds[..j])
      + (if itemIds[j] != "" then [IdEntry(itemIds[j], Locator(slide, j + 1))] else [])
  }

  /** The assignments for one slide: its own id (count 0), then its items. */
  function SlideEntries(slide: nat, shape: Shape): seq<IdEntry>
  {
    (if shape.id != "" then [IdEntry(shape.id, Locator(slide, 0))] else [])
    + ItemEntries(slide, shape.itemIds)
  }

  /** Every assignment of the table's construction, in the order made. */
  function IdEntries(shapes: seq<Shape>): seq<IdEntry>
    decreases |shapes|
  {
    if |shapes| == 0 then []
    else
      var i := |shapes| - 1;
      IdEntries(shapes[..i]) + SlideEntries(i, shapes[i])
  }

  /** The table a sequence of assignments leaves behind (a later assignment
      to the same id overwrites an earlier one). */
  function MapOf(es: seq<IdEntry>): map<string, Locator>
    decreases |es|
  {
    if |es| == 0 then map[]
    else
      var last := es[|es| - 1];
      MapOf(es[..|es| - 1])[last.id := last.at]
  }

  /** `idMap` as the presentation constructor builds it. */
  function BuildIdMap(shapes: seq<Shape>): map<string, Locator>
  {
    MapOf(IdEntries(shapes))
  }

  /** `[A-Za-z][A-Za-z0-9_.:-]*`, the identifier form of the hash grammar. */
  predicate IsIdentifier(s: string)
  {
    |s| > 0 && IsAsciiLetter(s[0]) && forall i :: 1 <= i < |s| ==> IsIdChar(s[i])
  }

  predicate DistinctIds(es: seq<IdEntry>)
  {
    forall a, b :: 0 <= a < b < |es| ==> es[a].id != es[b].id
  }

  /** The document condition for hashes to round-trip: the ids that are
      present are pairwise distinct and all have the identifier form. */
  predicate WellFormedIds(shapes: seq<Shape>)
  {
    var es := IdEntries(shapes);
    DistinctIds(es) && forall j :: 0 <= j < |es| ==> IsIdentifier(es[j].id)
  }

  /** Every key of a table has the identifier form. */
  predicate IdentifierKeys(idMap: map<string, Locator>)
  {
    forall k :: k in idMap ==> IsIdentifier(k)
  }

  // -----------------------------------------------------------------------
  // Parsing

  /** The slide part of a fragment: `([A-Za-z][A-Za-z0-9_.:-]*)` or `([0-9]+)`. */
  datatype TokenMatch = Named(name: string) | Numbered(index: nat)

  /** A fragment that fits `^#(?:id|[0-9]+)(?:\/\s*([0-9]+))?$`, with the item
      count read from the optional suffix (0 when it is absent). */
  datatype FragmentMatch = FragmentMatch(token: TokenMatch, item: nat)

  /** The slide token at the start of `body`, with its length.  Both
      alternatives are greedy and neither admits `/`, so the longest run is
      the only one the rest of the pattern can follow. */
  function LeadingToken(body: string): (r: Option<(TokenMatch, nat)>)
    ensures r.Some? ==> 0 < r.value.1 <= |body|
  {
    if |body| == 0 then None
    else if IsAsciiLetter(body[0]) then
      var n := 1 + PrefixRun(body[1..], IdChars);
      Some((Named(body[..n]), n))
    else if IsDigit(body[0]) then
      var n := PrefixRun(body, Digits);
      assert AllDigits(body[..n]);
      Some((Numbered(DecimalValue(body[..n])), n))
    else None
  }

  /** What follows the token: nothing (count 0), or `/`, any `\s`, and a
      digit run that reaches the end of the fragment. */
  function ItemSuffix(rest: string): Option<nat>
  {
    if rest == "" then Some(0)
    else if rest[0] != '/' then None
    else
      var after := rest[1..];
      var digits := after[PrefixRun(after, Spaces)..];
      if |digits| > 0 && AllDigits(digits) then Some(DecimalValue(digits)) else None
  }

  /** The anchored regular expression of `parseHash` applied to `location.hash`. */
  function MatchFragment(hash: string): Option<FragmentMatch>
  {
    if |hash| == 0 || hash[0] != '#' then None
    else
      var body := hash[1..];
      match LeadingToken(body)
      case None => None
      case Some(t) =>
        match ItemSuffix(body[t.1..])
        case None => None
        case Some(item) => Some(FragmentMatch(t.0, item))
  }

  /** `location.hash.substr(1)` */
  function HashKey(hash: string): string
  {
    if |hash| == 0 then "" else hash[1..]
  }

  /** The fragment names an identifier token that the table lacks. */
  predicate NamesUnknownId(hash: string, idMap: map<string, Locator>)
  {
    var m := MatchFragment(hash);
    m.Some? && m.value.token.Named? && m.value.token.name !in idMap
  }

  /** `parseHash` of `jqPresentation.js`.  The whole fragment is first looked
      up as an id; otherwise the pattern is tried and a fragment that does
      not fit it reads as the start.  `None` is the TypeError the source
      raises when the token is an identifier missing from the table. */
  function ParseHash(hash: string, idMap: map<string, Locator>): (r: Option<Locator>)
    ensures HashKey(hash) in idMap ==> r == Some(idMap[HashKey(hash)])
    ensures r.None? <==> HashKey(hash) !in idMap && NamesUnknownId(hash, idMap)
    ensures HashKey(hash) !in idMap && MatchFragment(hash).None? ==> r == Some(Locator(0, 0))
  {
    var key := HashKey(hash);
    if key in idMap then Some(idMap[key])
    else
      match MatchFragment(hash)
      case None => Some(Locator(0, 0))
      case Some(m) =>
        match m.token
        case Named(name) => if name in idMap then Some(Locator(idMap[name].slide, m.item)) else None
        case Numbered(n) => Some(Locator(n, m.item))
  }

  /** `parseHash` failing closed: an unknown identifier reads as the start,
      like any other fragment that names no position. */
  function Locate(hash: string, idMap: map<string, Locator>): (l: Locator)
    ensures ParseHash(hash, idMap).Some? ==> l == ParseHash(hash, idMap).value
    ensures ParseHash(hash, idMap).None? ==> l == Locator(0, 0)
  {
    ParseHash(hash, idMap).GetOr(Locator(0, 0))
  }

  // -----------------------------------------------------------------------
  // Serialising

  /** The slide's own id, or else its index in decimal. */
  function SlideToken(index: nat, shape: Shape): (t: string)
    ensures |t| > 0
  {
    if shape.id != "" then shape.id else NatToDecimal(index)
  }

  /** `getHash`: nothing at the very start, the slide token while no item
      is displayed, then the id of the last displayed item when it has one,
      else the slide token and the count. */
  function GetHash(index: nat, shape: Shape, count: nat): (h: string)
    requires count <= |shape.itemIds|
    ensures h == "" <==> index == 0 && count == 0
  {
    if index == 0 && count == 0 then ""
    else if count == 0 then SlideToken(index, shape)
    else if shape.itemIds[count - 1] != "" then shape.itemIds[count - 1]
    else SlideToken(index, shape) + "/" + NatToDecimal(count)
  }

  /** What `location.hash` reads after the fragment `f` is written: the
      browser reports an empty fragment as "" and any other with its `#`. */
  function LocationHashOf(f: string): (h: string)
    ensures f == "" ==> h == ""
    ensures f != "" ==> |h| > 0 && h[0] == '#' && h[1..] == f
  {
    if f == "" then "" else "#" + f
  }

  // -----------------------------------------------------------------------
  // Lemmas about the table

  lemma {:induction false} ItemEntryIn(slide: nat, itemIds: seq<string>, j: nat)
    requires j < |itemIds| && itemIds[j] != ""
    ensures IdEntry(itemIds[j], Locator(slide, j + 1)) in ItemEntries(slide, itemIds)
    decreases |itemIds|
  {
    var n := |itemIds| - 1;
    if j < n {
      ItemEntryIn(slide, itemIds[..n], j);
      assert itemIds[..n][j] == itemIds[j];
    }
  }

  lemma {:induction false} SlideEntriesIn(shapes: seq<Shape>, i: nat, e: IdEntry)
    requires i < |shapes| && e in SlideEntries(i, shapes[i])
    ensures e in IdEntries(shapes)
    decreases |shapes|
  {
    var n := |shapes| - 1;
    if i < n {
      SlideEntriesIn(shapes[..n], i, e);
    }
  }

  /** Later assignments win; with distinct ids every assignment survives. */
  lemma {:induction false} MapOfFinds(es: seq<IdEntry>, e: IdEntry)
    requires DistinctIds(es) && e in es
    ensures e.id in MapOf(es) && MapOf(es)[e.id] == e.at
    decreases |es|
  {
    var n := |es| - 1;
    if e != es[n] {
      var k :| 0 <= k < |es| && es[k] == e;
      assert k < n;
      assert es[..n][k] == e;
      MapOfFinds(es[..n], e);
    }
  }

  /** Only ids that were assigned are keys. */
  lemma {:induction false} MapOfKeys(es: seq<IdEntry>)
    requires forall j :: 0 <= j < |es| ==> IsIdentifier(es[j].id)
    ensures IdentifierKeys(MapOf(es))
    decreases |es|
  {
    if |es| > 0 {
      var n := |es| - 1;
      assert forall j :: 0 <= j < n ==> es[..n][j] == es[j];
      MapOfKeys(es[..n]);
    }
  }

  /** A slide's id maps to the slide with no item displayed. */
  lemma IdMapFindsSlide(shapes: seq<Shape>, i: nat)
    requires WellFormedIds(shapes) && i < |shapes| && shapes[i].id != ""
    ensures shapes[i].id in BuildIdMap(shapes)
    ensures BuildIdMap(shapes)[shapes[i].id] == Locator(i, 0)
    ensures IsIdentifier(shapes[i].id)
  {
    var e := IdEntry(shapes[i].id, Locator(i, 0));
    assert e in SlideEntries(i, shapes[i]);
    SlideEntriesIn(shapes, i, e);
    MapOfFinds(IdEntries(shapes), e);
  }

  /** An item's id maps to one past the item's position on its slide. */
  lemma IdMapFindsItem(shapes: seq<Shape>, i: nat, j: nat)
    requires WellFormedIds(shapes) && i < |shapes| && j < |shapes[i].itemIds|
    requires shapes[i].itemIds[j] != ""
    ensures shapes[i].itemIds[j] in BuildIdMap(shapes)
    ensures BuildIdMap(shapes)[shapes[i].itemIds[j]] == Locator(i, j + 1)
    ensures IsIdentifier(shapes[i].itemIds[j])
  {
    var e := IdEntry(shapes[i].itemIds[j], Locator(i, j + 1));
    ItemEntryIn(i, shapes[i].itemIds, j);
    assert e in SlideEntries(i, shapes[i]);
    SlideEntriesIn(shapes, i, e);
    MapOfFinds(IdEntries(shapes), e);
  }

  lemma IdMapKeys(shapes: seq<Shape>)
    requires WellFormedIds(shapes)
    ensures IdentifierKeys(BuildIdMap(shapes))
  {
    MapOfKeys(IdEntries(shapes));
  }

  // -----------------------------------------------------------------------
  // Lemmas about parsing

  /** A greedy run stops exactly where the characters stop fitting. */
  lemma {:induction false} PrefixRunConcat(a: string, b: string, p: CharClass)
    requires forall i :: 0 <= i < |a| ==> InClass(a[i], p)
    requires |b| == 0 || !InClass(b[0], p)
    ensures PrefixRun(a + b, p) == |a|
    decreases |a|
  {
    if |a| > 0 {
      assert (a + b)[1..] == a[1..] + b;
      PrefixRunConcat(a[1..], b, p);
    } else {
      assert a + b == b;
    }
  }

  /** `\s*` skips exactly the white space in front of a digit run. */
  lemma SkipSpaces(ws: string, ds: string)
    requires forall i :: 0 <= i < |ws| ==> InClass(ws[i], Spaces)
    requires |ds| > 0 && IsDigit(ds[0])
    ensures (ws + ds)[PrefixRun(ws + ds, Spaces)..] == ds
  {
    assert !InClass(ds[0], Spaces);
    PrefixRunConcat(ws, ds, Spaces);
    assert (ws + ds)[|ws|..] == ds;
  }

  /** The item suffix `/`, whitespace, digits reads as the digits' value. */
  lemma ItemSuffixReads(ws: string, ds: string)
    requires forall i :: 0 <= i < |ws| ==> InClass(ws[i], Spaces)
    requires |ds| > 0 && AllDigits(ds)
    ensures ItemSuffix("/" + ws + ds) == Some(DecimalValue(ds))
  {
    var rest := "/" + ws + ds;
    assert rest == "/" + (ws + ds);
    assert rest[1..] == ws + ds;
    SkipSpaces(ws, ds);
  }

  /** An identifier token followed by `/...` or nothing is read whole. */
  lemma LeadingName(token: string, suffix: string)
    requires IsIdentifier(token)
    requires |suffix| == 0 || suffix[0] == '/'
    ensures LeadingToken(token + suffix) == Some((Named(token), |token|))
  {
    var body := token + suffix;
    assert body[0] == token[0];
    assert forall i :: 0 <= i < |token[1..]| ==> InClass(token[1..][i], IdChars);
    assert body[1..] == token[1..] + suffix;
    PrefixRunConcat(token[1..], suffix, IdChars);
    assert body[..|token|] == token;
  }

  /** A digit token followed by `/...` or nothing is read whole. */
  lemma LeadingNumber(token: string, suffix: string)
    requires |token| > 0 && AllDigits(token)
    requires |suffix| == 0 || suffix[0] == '/'
    ensures LeadingToken(token + suffix) == Some((Numbered(DecimalValue(token)), |token|))
  {
    var body := token + suffix;
    assert body[0] == token[0];
    assert !IsAsciiLetter(token[0]);
    assert forall i :: 0 <= i < |token| ==> InClass(token[i], Digits);
    PrefixRunConcat(token, suffix, Digits);
    assert body[..|token|] == token;
  }

  /** A string holding `/` after its first character is not an identifier. */
  lemma SlashIsNoIdentifier(token: string, suffix: string)
    requires |token| > 0 && |suffix| > 0 && suffix[0] == '/'
    ensures !IsIdentifier(token + suffix)
  {
    assert (token + suffix)[|token|] == '/';
  }

  /** `#n` reads as slide `n`, item 0. */
  lemma ParseNumbered(ds: string, idMap: map<string, Locator>)
    requires |ds| > 0 && AllDigits(ds) && IdentifierKeys(idMap)
    ensures ParseHash("#" + ds, idMap) == Some(Locator(DecimalValue(ds), 0))
  {
    var h := "#" + ds;
    assert h[1..] == ds;
    assert !IsIdentifier(ds) by { assert !IsAsciiLetter(ds[0]); }
    LeadingNumber(ds, "");
    assert ds + "" == ds;
    assert ds[|ds|..] == "";
  }

  /** `#n/m`, with any whitespace after the slash, reads as slide `n`, item `m`. */
  lemma ParseNumberedItem(ds: string, ws: string, ms: string, idMap: map<string, Locator>)
    requires |ds| > 0 && AllDigits(ds)
    requires forall i :: 0 <= i < |ws| ==> InClass(ws[i], Spaces)
    requires |ms| > 0 && AllDigits(ms)
    requires IdentifierKeys(idMap)
    ensures ParseHash("#" + ds + "/" + ws + ms, idMap) == Some(Locator(DecimalValue(ds), DecimalValue(ms)))
  {
    var suffix := "/" + ws + ms;
    var h := "#" + ds + "/" + ws + ms;
    assert h[1..] == ds + suffix;
    SlashIsNoIdentifier(ds, suffix);
    LeadingNumber(ds, suffix);
    assert (ds + suffix)[|ds|..] == suffix;
    ItemSuffixReads(ws, ms);
  }

  /** The pattern assembled from its parts: `#`, a slide token, and an item
      suffix that runs to the end. */
  lemma MatchFromParts(h: string, token: TokenMatch, n: nat, item: nat)
    requires |h| > 0 && h[0] == '#'
    requires LeadingToken(h[1..]) == Some((token, n))
    requires ItemSuffix(h[1..][n..]) == Some(item)
    ensures MatchFragment(h) == Some(FragmentMatch(token, item))
  {
  }

  /** `#token/ws ms` splits into the token and its item suffix. */
  lemma SplitItemFragment(token: string, ws: string, ms: string)
    ensures var h := "#" + token + "/" + ws + ms;
      && |h| > 0 && h[0] == '#'
      && h[1..] == token + ("/" + ws + ms)
      && h[1..][|token|..] == "/" + ws + ms
  {
    var h := "#" + token + "/" + ws + ms;
    assert h[1..] == token + ("/" + ws + ms);
    assert (token + ("/" + ws + ms))[|token|..] == "/" + ws + ms;
  }

  /** The pattern reads `#id/m` as the identifier token `id` and item `m`. */
  lemma MatchNamedItem(name: string, ws: string, ms: string)
    requires IsIdentifier(name)
    requires forall i :: 0 <= i < |ws| ==> InClass(ws[i], Spaces)
    requires |ms| > 0 && AllDigits(ms)
    ensures MatchFragment("#" + name + "/" + ws + ms) == Some(FragmentMatch(Named(name), DecimalValue(ms)))
  {
    var suffix := "/" + ws + ms;
    SplitItemFragment(name, ws, ms);
    LeadingName(name, suffix);
    ItemSuffixReads(ws, ms);
    MatchFromParts("#" + name + "/" + ws + ms, Named(name), |name|, DecimalValue(ms));
  }

  /** `text` is what the pattern's slide group captured for `token`: the
      identifier itself, or a digit run with that value. */
  predicate TokenText(text: string, token: TokenMatch)
  {
    match token
    case Named(name) => text == name && IsIdentifier(text)
    case Numbered(index) => |text| > 0 && AllDigits(text) && DecimalValue(text) == index
  }

  /** Whatever `LeadingToken` reports is the text it consumed. */
  lemma LeadingTokenText(body: string)
    requires LeadingToken(body).Some?
    ensures TokenText(body[..LeadingToken(body).value.1], LeadingToken(body).value.0)
  {
    var n := LeadingToken(body).value.1;
    var text := body[..n];
    if IsAsciiLetter(body[0]) {
      forall i | 1 <= i < |text|
        ensures IsIdChar(text[i])
      {
        assert text[i] == body[1..][i - 1];
      }
    }
  }

  /** An accepted item suffix is empty (count 0) or `/`, white space and a
      non-empty digit run holding the count. */
  lemma ItemSuffixShape(rest: string) returns (ws: string, ds: string)
    requires ItemSuffix(rest).Some?
    ensures forall i :: 0 <= i < |ws| ==> InClass(ws[i], Spaces)
    ensures AllDigits(ds) && DecimalValue(ds) == ItemSuffix(rest).value
    ensures (rest == "" && ws == "" && ds == "") || (|ds| > 0 && rest == "/" + ws + ds)
  {
    if rest == "" {
      ws, ds := "", "";
    } else {
      var after := rest[1..];
      var m := PrefixRun(after, Spaces);
      ws, ds := after[..m], after[m..];
      assert ItemSuffix(rest) == Some(DecimalValue(ds));
      assert forall i :: 0 <= i < |ws| ==> ws[i] == after[i];
      SlashThen(rest, ws, ds);
    }
  }

  /** A string that starts with `/` is `/` and its two halves after it. */
  lemma SlashThen(rest: string, ws: string, ds: string)
    requires |rest| > 0 && rest[0] == '/'
    requires ws + ds == rest[1..]
    ensures rest == "/" + ws + ds
  {
    assert rest == [rest[0]] + rest[1..];
  }

  /** An accepted fragment is `#`, a token `LeadingToken` reads, and an
      item suffix `ItemSuffix` reads, and the match holds their results. */
  lemma MatchFragmentParts(h: string)
    requires MatchFragment(h).Some?
    ensures |h| > 0 && h[0] == '#'
    ensures LeadingToken(h[1..]).Some?
    ensures var t := LeadingToken(h[1..]).value;
      && ItemSuffix(h[1..][t.1..]).Some?
      && MatchFragment(h).value == FragmentMatch(t.0, ItemSuffix(h[1..][t.1..]).value)
  {
  }

  /** `#`, a token and its suffix, joined back together. */
  lemma JoinFragment(h: string, text: string, rest: string, ws: string, ds: string)
    requires |h| > 0 && h[0] == '#' && h[1..] == text + rest
    requires rest == "" || rest == "/" + ws + ds
    ensures rest == "" ==> h == "#" + text
    ensures rest != "" ==> h == "#" + text + "/" + ws + ds
  {
    assert h == [h[0]] + h[1..];
  }

  /** The converse of the reading lemmas: a fragment the pattern accepts is
      `#`, the captured slide token, and either nothing (count 0) or `/`,
      white space and the digits of the count. */
  lemma MatchFragmentShape(h: string) returns (text: string, ws: string, ds: string)
    requires MatchFragment(h).Some?
    ensures TokenText(text, MatchFragment(h).value.token)
    ensures forall i :: 0 <= i < |ws| ==> InClass(ws[i], Spaces)
    ensures AllDigits(ds) && DecimalValue(ds) == MatchFragment(h).value.item
    ensures (ws == "" && ds == "" && h == "#" + text) || (|ds| > 0 && h == "#" + text + "/" + ws + ds)
  {
    MatchFragmentParts(h);
    var body := h[1..];
    var n := LeadingToken(body).value.1;
    LeadingTokenText(body);
    text := body[..n];
    var rest := body[n..];
    ws, ds := ItemSuffixShape(rest);
    assert body == text + rest;
    JoinFragment(h, text, rest, ws, ds);
  }

  /** A fragment that is no key of the table and matches with an identifier
      token reads through the table entry of that token. */
  lemma ParseNamedMatch(hash: string, idMap: map<string, Locator>, name: string, item: nat)
    requires HashKey(hash) !in idMap
    requires MatchFragment(hash) == Some(FragmentMatch(Named(name), item))
    ensures name in idMap ==> ParseHash(hash, idMap) == Some(Locator(idMap[name].slide, item))
    ensures name !in idMap ==> ParseHash(hash, idMap).None?
  {
  }

  /** `#id/m` reads as the slide of `id`, item `m`; when the table lacks `id`
      the source's lookup fails. */
  lemma ParseNamedItem(name: string, ws: string, ms: string, idMap: map<string, Locator>)
    requires IsIdentifier(name)
    requires forall i :: 0 <= i < |ws| ==> InClass(ws[i], Spaces)
    requires |ms| > 0 && AllDigits(ms)
    requires IdentifierKeys(idMap)
    ensures name in idMap ==>
      ParseHash("#" + name + "/" + ws + ms, idMap) == Some(Locator(idMap[name].slide, DecimalValue(ms)))
    ensures name !in idMap ==> ParseHash("#" + name + "/" + ws + ms, idMap).None?
  {
    var h := "#" + name + "/" + ws + ms;
    SplitItemFragment(name, ws, ms);
    SlashIsNoIdentifier(name, "/" + ws + ms);
    assert HashKey(h) !in idMap;
    MatchNamedItem(name, ws, ms);
    ParseNamedMatch(h, idMap, name, DecimalValue(ms));
  }

  /** Round trip of the codec: for a document whose ids are distinct
      identifiers, the fragment `getHash` writes for a position reads back as
      that position, whether the hash is compared with its `#` or read back
      from `location.hash`. */
  lemma GetHashRoundTrip(shapes: seq<Shape>, index: nat, count: nat)
    requires WellFormedIds(shapes) && index < |shapes| && count <= |shapes[index].itemIds|
    ensures ParseHash("#" + GetHash(index, shapes[index], count), BuildIdMap(shapes))
            == Some(Locator(index, count))
    ensures ParseHash(LocationHashOf(GetHash(index, shapes[index], count)), BuildIdMap(shapes))
            == Some(Locator(index, count))
  {
    var idMap := BuildIdMap(shapes);
    var shape := shapes[index];
    var f := GetHash(index, shape, count);
    IdMapKeys(shapes);
    if index == 0 && count == 0 {
      assert HashKey("#") == "" && "" !in idMap;
      assert LeadingToken(HashKey("#")).None?;
      assert MatchFragment("#").None?;
    } else {
      assert LocationHashOf(f) == "#" + f;
      assert HashKey("#" + f) == f;
      if count == 0 && shape.id != "" {
        IdMapFindsSlide(shapes, index);
      } else if count == 0 {
        var ds := NatToDecimal(index);
        assert !IsIdentifier(ds) by { assert !IsAsciiLetter(ds[0]); }
        ParseNumbered(ds, idMap);
      } else if shape.itemIds[count - 1] != "" {
        IdMapFindsItem(shapes, index, count - 1);
      } else {
        var ms := NatToDecimal(count);
        assert "#" + f == "#" + SlideToken(index, shape) + "/" + "" + ms;
        if shape.id != "" {
          IdMapFindsSlide(shapes, index);
          ParseNamedItem(shape.id, "", ms, idMap);
        } else {
          ParseNumberedItem(NatToDecimal(index), "", ms, idMap);
        }
      }
    }
  }
}

=== FILE: js_basics.dfy ===
/**
  The pieces of JavaScript's built-in behaviour the presenter leans on:
  the character classes of its two regular expressions, `parseInt(s, 10)`
  on a run of decimal digits, number-to-string conversion of a
  non-negative integer, and the truncating remainder operator `%`.
 */
module JsBasics {

  /** `a % n` in JavaScript for a positive divisor: the remainder carries the
      sign of the dividend (division truncates toward zero), whereas Dafny's
      `%` is Euclidean and never negative. */
  function JsRem(a: int, n: int): (r: int)
    requires n > 0
    ensures -n < r < n
    ensures a >= 0 ==> 0 <= r
    ensures a <= 0 ==> r <= 0
    ensures -n < a < n ==> r == a
    ensures a == -n ==> r == 0
    ensures a == JsQuot(a, n) * n + r
  {
    if a >= 0 then
      EuclideanFacts(a, n);
      a % n
    else
      EuclideanFacts(-a, n);
      NegateProduct((-a) / n, n);
      -((-a) % n)
  }

  /** Division of a non-negative dividend, the case where Dafny's `/` and
      `%` agree with JavaScript's. */
  lemma EuclideanFacts(b: int, n: int)
    requires b >= 0 && n > 0
    ensures 0 <= b % n < n
    ensures b == (b / n) * n + b % n
    ensures b < n ==> b % n == b
    ensures b == n ==> b % n == 0
  {
    if b == n {
      assert b == 1 * n + 0;
    }
  }

  lemma NegateProduct(q: int, n: int)
    ensures (-q) * n == -(q * n)
  {
  }

  /** The quotient of JavaScript's division truncated toward zero
      (`Math.trunc(a / n)`), the partner of `JsRem`. */
  function JsQuot(a: int, n: int): int
    requires n > 0
  {
    if a >= 0 then a / n else -((-a) / n)
  }

  // ---------------------------------------------------------------------
  // Character classes

  predicate IsDigit(c: char) { '0' <= c <= '9' }

  /** `[A-Za-z]` */
  predicate IsAsciiLetter(c: char) { 'A' <= c <= 'Z' || 'a' <= c <= 'z' }

  /** `[A-Za-z0-9_.:-]`, the characters allowed after the first one of an identifier. */
  predicate IsIdChar(c: char)
  {
    IsAsciiLetter(c) || IsDigit(c) || c == '_' || c == '.' || c == ':' || c == '-'
  }

  /** `\s` of ECMAScript regular expressions: the WhiteSpace and LineTerminator
      code points (tab, vertical tab, form feed, space, no-break space, the
      byte-order mark, the Zs category, line feed, carriage return and the
      line and paragraph separators). */
  predicate IsJsSpace(c: char)
  {
    || c == '\t' || c == '\n' || c == '\U{B}' || c == '\U{C}' || c == '\r' || c == ' '
    || c == '\U{A0}' || c == '\U{1680}' || ('\U{2000}' <= c <= '\U{200A}')
    || c == '\U{2028}' || c == '\U{2029}' || c == '\U{202F}' || c == '\U{205F}'
    || c == '\U{3000}' || c == '\U{FEFF}'
  }

  predicate AllDigits(s: string)
  {
    forall i :: 0 <= i < |s| ==> IsDigit(s[i])
  }

  // ---------------------------------------------------------------------
  // Greedy runs and searches, the building blocks of the regular expressions

  /** The character classes the patterns repeat greedily. */
  datatype CharClass = Digits | IdChars | Spaces

  predicate InClass(c: char, k: CharClass)
  {
    match k
    case Digits => IsDigit(c)
    case IdChars => IsIdChar(c)
    case Spaces => IsJsSpace(c)
  }

  /** Length of the longest prefix of `s` whose characters all belong to
      class `k`: what a greedy `[...]*` consumes. */
  function PrefixRun(s: string, k: CharClass): (n: nat)
    ensures n <= |s|
    ensures forall i :: 0 <= i < n ==> InClass(s[i], k)
    ensures n == |s| || !InClass(s[n], k)
  {
    if |s| == 0 || !InClass(s[0], k) then 0 else 1 + PrefixRun(s[1..], k)
  }

  /** Position of the first digit of `s`, or `|s|` when it has none: where an
      unanchored pattern that starts with `[0-9]` first matches. */
  function FirstDigit(s: string): (k: nat)
    ensures k <= |s|
    ensures forall i :: 0 <= i < k ==> !IsDigit(s[i])
    ensures k < |s| ==> IsDigit(s[k])
  {
    if |s| == 0 || IsDigit(s[0]) then 0 else 1 + FirstDigit(s[1..])
  }

  // ---------------------------------------------------------------------
  // Decimal numbers

  function DigitValue(c: char): (d: nat)
    requires IsDigit(c)
    ensures d < 10
  {
    (c as int) - ('0' as int)
  }

  function DigitChar(d: nat): (c: char)
    requires d < 10
    ensures IsDigit(c) && DigitValue(c) == d
  {
    ('0' as int + d) as char
  }

  /** `parseInt(s, 10)` of a string of decimal digits (exact: JavaScript's
      loss of precision above 2^53 is not modelled). */
  function DecimalValue(s: string): nat
    requires AllDigits(s)
    decreases |s|
  {
    if |s| == 0 then 0
    else 10 * DecimalValue(s[..|s| - 1]) + DigitValue(s[|s| - 1])
  }

  /** The string JavaScript produces for a non-negative integer: decimal
      digits with no leading zero, reading back as the same number. */
  function NatToDecimal(n: nat): (s: string)
    ensures |s| > 0 && AllDigits(s)
    ensures DecimalValue(s) == n
    ensures s[0] == '0' ==> n == 0
    decreases n
  {
    if n < 10 then [DigitChar(n)]
    else
      var init := NatToDecimal(n / 10);
      var s := init + [DigitChar(n % 10)];
      assert s[..|s| - 1] == init;
      s
  }
}

=== FILE: legacy.dfy ===
/**
  The earlier presenter, `jQuery.Presentation.js`.  Its slides run the same
  step loop (module `Slides`) and its `slideMoveTo` settles the slides the
  same way (`Arrive`), but the address bar is handled differently:
  - each slide writes its own hash (`Slide.updateHash`), and only while it
    is the current slide, always by assigning `location.hash`;
  - nothing suppresses those writes during a move or a `hashchange`;
  - the fragment is `index` or `index/count`, and `parseHash` is an
    unanchored search for digits that reports `false` when there are none.
 */
module Legacy {
  import opened JsBasics
  import opened Optional
  import opened Slides
  import opened Navigation
  import opened HashCodec
  import opened Presentation

  /** - slides, currentSlide (-1 for the placeholder) as in `Pres`;
      - locationHash: what `location.hash` reads;
      - history: every fragment assigned to `location.hash`, oldest first. */
  datatype LegacyPres = LegacyPres(
    slides: seq<Slide>,
    currentSlide: int,
    locationHash: string,
    history: seq<string>)

  predicate LReady(p: LegacyPres)
  {
    0 <= p.currentSlide < |p.slides| && AllCounted(p.slides)
  }

  /** The fragment `Slide.updateHash` writes: empty at the very start, else
      the slide index, followed by `/` and the count when items are shown. */
  function Fragment(index: nat, count: nat): (f: string)
    ensures f == "" <==> index == 0 && count == 0
  {
    if index == 0 && count == 0 then ""
    else NatToDecimal(index) + (if count != 0 then "/" + NatToDecimal(count) else "")
  }

  /** The address bar shows the displayed position's fragment. */
  predicate LSynced(p: LegacyPres)
  {
    && 0 <= p.currentSlide < |p.slides|
    && p.slides[p.currentSlide].currentIndex >= 0
    && p.locationHash == LocationHashOf(Fragment(p.currentSlide, p.slides[p.currentSlide].currentIndex))
  }

  // -----------------------------------------------------------------------
  // Parsing

  /** `parseInt` of the longest run of digits `s` starts with. */
  function RunValue(s: string): nat
  {
    var n := PrefixRun(s, Digits);
    assert AllDigits(s[..n]) by {
      forall i | 0 <= i < n ensures IsDigit(s[..n][i]) {
        assert InClass(s[i], Digits);
      }
    }
    DecimalValue(s[..n])
  }

  /** `\/?\s*([0-9]+)?` after the slide's digits: the count, 0 when the
      optional group is absent. */
  function LegacyCount(after: string): nat
  {
    var afterSlash := if |after| > 0 && after[0] == '/' then after[1..] else after;
    RunValue(afterSlash[PrefixRun(afterSlash, Spaces)..])
  }

  /** `parseHash`: the first run of digits is the slide; after it an
      optional `/` and white space, and a second run of digits, if present,
      is the count.  `None` is the `false` returned when the hash has no
      digit. */
  function LegacyParse(hash: string): (r: Option<Locator>)
    ensures r.None? <==> forall i :: 0 <= i < |hash| ==> !IsDigit(hash[i])
  {
    var k := FirstDigit(hash);
    if k == |hash| then None
    else
      var rest := hash[k..];
      Some(Locator(RunValue(rest), LegacyCount(rest[PrefixRun(rest, Digits)..])))
  }

  // -----------------------------------------------------------------------
  // Writing the hash

  /** `Slide.updateHash` of slide `i`: the current slide assigns its
      fragment, any other slide writes nothing. */
  function SlideUpdateHash(p: LegacyPres, i: int): (q: LegacyPres)
    requires 0 <= i < |p.slides| && p.slides[i].currentIndex >= 0
    ensures q.slides == p.slides && q.currentSlide == p.currentSlide
    ensures i != p.currentSlide ==> q == p
    ensures i == p.currentSlide ==> LSynced(q) && q.history == p.history + [Fragment(i, p.slides[i].currentIndex)]
  {
    if i != p.currentSlide then p
    else
      var f := Fragment(i, p.slides[i].currentIndex);
      p.(locationHash := LocationHashOf(f), history := p.history + [f])
  }

  /** The fragment the old current slide `from` writes while a move to `t`
      settles it, if settling changes its count. */
  function MidwayWrites(slides: seq<Slide>, t: int, from: int): (w: seq<string>)
    requires AllShaped(slides)
    ensures |w| <= 1
    ensures |w| == 1 ==>
      0 <= from < |slides| && w[0] == Fragment(from, Arrive(slides[from], from, t, from).currentIndex)
  {
    if 0 <= from < |slides| && Arrive(slides[from], from, t, from).currentIndex != slides[from].currentIndex
    then [Fragment(from, Arrive(slides[from], from, t, from).currentIndex)]
    else []
  }

  // -----------------------------------------------------------------------
  // Navigation

  /** The loop of `slideMoveTo` from slide `i` on; the current slide is
      still the old one, so its `fill` or `clear` writes its hash. */
  function LSettleFrom(p: LegacyPres, t: nat, i: nat): (q: LegacyPres)
    requires t < |p.slides| && i <= |p.slides| && AllShaped(p.slides)
    ensures q == p.(slides := q.slides, locationHash := q.locationHash, history := q.history)
    ensures |q.slides| == |p.slides|
    ensures forall j :: 0 <= j < i ==> q.slides[j] == p.slides[j]
    ensures forall j :: i <= j < |p.slides| ==> q.slides[j] == Arrive(p.slides[j], j, t, p.currentSlide)
    ensures q.history == p.history + (if i <= p.currentSlide then MidwayWrites(p.slides, t, p.currentSlide) else [])
    decreases |p.slides| - i
  {
    if i == |p.slides| then p
    else
      var p3 := LSettleOne(p, t, i);
      SettleTail(p, p3, t, i);
      LSettleFrom(p3, t, i + 1)
  }

  /** One pass of the loop of `slideMoveTo`: slide `i` is filled or cleared,
      writing its hash if it is the current slide and its count changed,
      then kept in or taken out of the layout. */
  function LSettleOne(p: LegacyPres, t: nat, i: nat): (q: LegacyPres)
    requires t < |p.slides| && i < |p.slides| && AllShaped(p.slides)
    ensures q == p.(slides := q.slides, locationHash := q.locationHash, history := q.history)
    ensures q.slides == p.slides[i := Arrive(p.slides[i], i, t, p.currentSlide)]
    ensures q.history == p.history + (if i == p.currentSlide then MidwayWrites(p.slides, t, p.currentSlide) else [])
  {
    var s := p.slides[i];
    var (s1, changed) := if FillsOnArrival(i, t, p.currentSlide) then Fill(s) else Clear(s);
    var p1 := p.(slides := p.slides[i := s1]);
    var p2 := if changed then SlideUpdateHash(p1, i) else p1;
    var lo := Min(p.currentSlide, t);
    var hi := Max(p.currentSlide, t);
    p2.(slides := p2.slides[i := p2.slides[i].(onStage := OnStage(i, lo, hi))])
  }

  /** The step of `LSettleFrom` at slide `i` leaves the fragment it wrote,
      if any, as all the old current slide will write. */
  lemma SettleTail(p: LegacyPres, p3: LegacyPres, t: nat, i: nat)
    requires t < |p.slides| && i < |p.slides| && AllShaped(p.slides)
    requires |p3.slides| == |p.slides| && p3.currentSlide == p.currentSlide
    requires forall j :: 0 <= j < |p.slides| && j != i ==> p3.slides[j] == p.slides[j]
    requires p3.slides[i] == Arrive(p.slides[i], i, t, p.currentSlide)
    requires p3.history == p.history + (if i == p.currentSlide then MidwayWrites(p.slides, t, p.currentSlide) else [])
    ensures AllShaped(p3.slides)
    ensures forall j :: i + 1 <= j < |p.slides| ==> p3.slides[j] == p.slides[j]
    ensures p.history + (if i <= p.currentSlide then MidwayWrites(p.slides, t, p.currentSlide) else [])
         == p3.history + (if i + 1 <= p3.currentSlide then MidwayWrites(p3.slides, t, p3.currentSlide) else [])
  {
    if i + 1 <= p.currentSlide < |p.slides| {
      assert p3.slides[p.currentSlide] == p.slides[p.currentSlide];
      assert MidwayWrites(p3.slides, t, p3.currentSlide) == MidwayWrites(p.slides, t, p.currentSlide);
    }
  }

  /** `slideMoveTo(targetIndex)` */
  function LSlideMoveTo(p: LegacyPres, targetIndex: int): (q: LegacyPres)
    requires -1 <= p.currentSlide < |p.slides| && AllShaped(p.slides)
    ensures var t := Wrap(targetIndex, |p.slides|);
      && (!Lands(t, |p.slides|) ==> q == p)
      && (Lands(t, |p.slides|) ==>
        && q.currentSlide == t
        && |q.slides| == |p.slides|
        && (forall j :: 0 <= j < |p.slides| ==> q.slides[j] == Arrive(p.slides[j], j, t, p.currentSlide))
        && LReady(q) && LSynced(q)
        && q.history == p.history + MidwayWrites(p.slides, t, p.currentSlide)
                        + [Fragment(t, q.slides[t].currentIndex)])
  {
    var t := Wrap(targetIndex, |p.slides|);
    if !Lands(t, |p.slides|) then p
    else
      var p2 := LSettleFrom(p, t, 0);
      SlideUpdateHash(p2.(currentSlide := t), t)
  }

  /** `slideMoveBy(offset)` */
  function LSlideMoveBy(p: LegacyPres, offset: int): (q: LegacyPres)
    requires LReady(p)
    ensures p.currentSlide + offset < 0 ==> q == p
    ensures p.currentSlide + offset >= 0 ==> q == LSlideMoveTo(p, p.currentSlide + offset)
    ensures p.currentSlide + offset >= |p.slides| ==> q == p
    ensures 0 <= p.currentSlide + offset < |p.slides| ==>
      q.currentSlide == p.currentSlide + offset && LSynced(q)
    ensures LReady(q) && |q.slides| == |p.slides|
  {
    match MoveByTarget(p.currentSlide, offset)
    case None => p
    case Some(t) => LSlideMoveTo(p, t)
  }

  /** Carry out what slide `i` asked for: a shown or hidden item makes the
      slide write its hash. */
  function LRunRequest(p: LegacyPres, i: int, r: Request): (q: LegacyPres)
    requires LReady(p) && 0 <= i < |p.slides|
    ensures LReady(q) && |q.slides| == |p.slides|
    ensures forall j :: 0 <= j < |p.slides| ==> q.slides[j].shape == p.slides[j].shape
    ensures AllValid(p.slides) ==> AllValid(q.slides)
    ensures r.Idle? ==> q == p
    ensures r.Reveal? || r.Conceal? ==> q == SlideUpdateHash(p, i)
    ensures !r.ChangeSlide? ==> q.slides == p.slides && q.currentSlide == p.currentSlide
    ensures r.ChangeSlide? ==> q == LSlideMoveBy(p, r.offset)
  {
    match r
    case Idle => p
    case Reveal(_) => SlideUpdateHash(p, i)
    case Conceal(_) => SlideUpdateHash(p, i)
    case ChangeSlide(d) => LSlideMoveBy(p, d)
  }

  /** `currentSlide.moveTo(index)`; its effect is stated by `LItemMoveToEffect`. */
  function LItemMoveTo(p: LegacyPres, index: int): (q: LegacyPres)
    requires LReady(p)
    ensures LReady(q) && |q.slides| == |p.slides|
    ensures forall j :: 0 <= j < |p.slides| ==> q.slides[j].shape == p.slides[j].shape
    ensures AllValid(p.slides) ==> AllValid(q.slides)
    ensures LSynced(p) ==> LSynced(q)
  {
    var (s, r) := MoveTo(p.slides[p.currentSlide], index);
    LRunRequest(p.(slides := p.slides[p.currentSlide := s]), p.currentSlide, r)
  }

  /** The completion of slide `i`'s running step re-enters its loop
      (`LCompleteEffect`). */
  function LComplete(p: LegacyPres, i: int): (q: LegacyPres)
    requires LReady(p) && 0 <= i < |p.slides|
    ensures LReady(q) && |q.slides| == |p.slides|
    ensures forall j :: 0 <= j < |p.slides| ==> q.slides[j].shape == p.slides[j].shape
    ensures AllValid(p.slides) ==> AllValid(q.slides)
    ensures LSynced(p) ==> LSynced(q)
  {
    var (s, r) := DoStep(p.slides[i]);
    LRunRequest(p.(slides := p.slides[i := s]), i, r)
  }

  /** `currentSlide.jumpTo(index)`; the current slide writes its hash when
      the jump changed anything. */
  function LJumpCurrentTo(p: LegacyPres, index: nat): (q: LegacyPres)
    requires 0 <= p.currentSlide < |p.slides| && AllShaped(p.slides)
    ensures q.slides == p.slides[p.currentSlide := JumpTo(p.slides[p.currentSlide], index).0]
    ensures q.currentSlide == p.currentSlide
    ensures p.slides[p.currentSlide].currentIndex == index ==> q == p
    ensures p.slides[p.currentSlide].currentIndex != index ==>
      LSynced(q) && q.history == p.history + [Fragment(p.currentSlide, index)]
  {
    var (s, changed) := JumpTo(p.slides[p.currentSlide], index);
    var p1 := p.(slides := p.slides[p.currentSlide := s]);
    if changed then SlideUpdateHash(p1, p.currentSlide) else p1
  }

  /** The End key. */
  function LEndKey(p: LegacyPres): (q: LegacyPres)
    requires LReady(p)
    ensures LReady(q) && |q.slides| == |p.slides|
    ensures AllValid(p.slides) ==> AllValid(q.slides)
    ensures LSynced(p) ==> LSynced(q)
  {
    if p.currentSlide == |p.slides| - 1 then LItemMoveTo(p, p.slides[p.currentSlide].Count())
    else LSlideMoveTo(p, -1)
  }

  /** Move to slide `slide` unless it is already current; an index past the
      last slide leaves the presentation where it is. */
  function LSeekSlide(p: LegacyPres, slide: nat): (q: LegacyPres)
    requires LReady(p)
    ensures LReady(q) && |q.slides| == |p.slides| && AllShaped(q.slides)
    ensures forall j :: 0 <= j < |p.slides| ==> q.slides[j].shape == p.slides[j].shape
    ensures q.currentSlide == (if slide < |p.slides| then slide else p.currentSlide)
    ensures AllValid(p.slides) ==> AllValid(q.slides)
    ensures slide == p.currentSlide ==> q == p
  {
    if slide != p.currentSlide then LSlideMoveTo(p, slide) else p
  }

  /** The `hashchange` handler: ignore a hash without digits, else move to
      its slide unless it is current and jump to its count, every change
      writing the hash again. */
  function LHashChange(p: LegacyPres, hash: string): (q: LegacyPres)
    requires LReady(p)
    ensures |q.slides| == |p.slides|
    ensures LegacyParse(hash).None? ==> q == p.(locationHash := hash)
  {
    var p1 := p.(locationHash := hash);
    match LegacyParse(hash)
    case None => p1
    case Some(l) => LJumpCurrentTo(LSeekSlide(p1, l.slide), l.item)
  }

  /** One event. */
  function LStep(p: LegacyPres, c: Command): (q: LegacyPres)
    requires LReady(p)
    ensures |q.slides| == |p.slides|
    ensures !c.HashChanged? ==> LReady(q) && (AllValid(p.slides) ==> AllValid(q.slides)) && (LSynced(p) ==> LSynced(q))
  {
    match c
    case ItemStep(d) => LItemMoveTo(p, p.slides[p.currentSlide].targetIndex + d)
    case SlideStep(d) => LSlideMoveBy(p, d)
    case Home => LSlideMoveTo(p, 0)
    case End => LEndKey(p)
    case Completed(i) => if 0 <= i < |p.slides| && p.slides[i].isAnimating then LComplete(p, i) else p
    case HashChanged(h) => LHashChange(p, h)
  }

  /** The constructor: move to the slide the opening hash names (slide 0
      when it names none) and jump to its count.  `None` when no slide has
      that index: the placeholder slide then stays current. */
  function LegacyConstruct(shapes: seq<Shape>, hash: string): (r: Option<LegacyPres>)
    ensures var target := (match LegacyParse(hash) case None => 0 case Some(l) => l.slide);
      && (r.Some? <==> target < |shapes|)
      && (r.Some? ==> r.value.currentSlide == target && LSynced(r.value) && |r.value.slides| == |shapes|)
  {
    var u := Unsettled(shapes, hash);
    var p0 := LegacyPres(u.slides, -1, hash, []);
    match LegacyParse(hash)
    case None => LOpen(p0, 0, None)
    case Some(l) => LOpen(p0, l.slide, Some(l.item))
  }

  /** The end of the constructor from the placeholder state `p0`: move to
      `slide`, then jump to the count when the hash gave one. */
  function LOpen(p0: LegacyPres, slide: nat, item: Option<nat>): (r: Option<LegacyPres>)
    requires p0.currentSlide == -1 && AllShaped(p0.slides)
    ensures r.Some? <==> slide < |p0.slides|
    ensures r.Some? ==> r.value.currentSlide == slide && LSynced(r.value) && |r.value.slides| == |p0.slides|
  {
    var p1 := LSlideMoveTo(p0, slide);
    if p1.currentSlide < 0 then None
    else
      match item
      case None => Some(p1)
      case Some(k) => Some(LJumpCurrentTo(p1, k))
  }
}

=== FILE: legacy_props.dfy ===
/**
  What the earlier presenter does with the address bar: its fragments read
  back, the echo of its own write is harmless, but moves and `hashchange`
  write the hash several times, and returning to the start is ignored.
 */
module LegacyProps {
  import opened JsBasics
  import opened Optional
  import opened Slides
  import opened HashCodec
  import opened Presentation
  import opened Legacy
  import opened Navigation

  /** A run of digits followed by a non-digit reads as its value. */
  lemma RunValueReads(ds: string, suffix: string)
    requires |ds| > 0 && AllDigits(ds) && (|suffix| == 0 || !IsDigit(suffix[0]))
    ensures PrefixRun(ds + suffix, Digits) == |ds|
    ensures RunValue(ds + suffix) == DecimalValue(ds)
  {
    PrefixRunConcat(ds, suffix, Digits);
    assert (ds + suffix)[..|ds|] == ds;
  }

  /** `/` and a decimal number read as that count. */
  lemma LegacyCountReads(ms: string)
    requires |ms| > 0 && AllDigits(ms)
    ensures LegacyCount("/" + ms) == DecimalValue(ms)
  {
    var after := "/" + ms;
    assert |after| > 0 && after[0] == '/' && after[1..] == ms;
    assert IsDigit(ms[0]);
    assert !InClass(ms[0], Spaces);
    assert PrefixRun(ms, Spaces) == 0;
    assert ms[0..] == ms;
    RunValueReads(ms, "");
    assert ms + "" == ms;
  }

  /** Nothing after the slide's digits reads as count 0. */
  lemma LegacyCountEmpty()
    ensures LegacyCount("") == 0
  {
    assert PrefixRun("", Spaces) == 0;
    assert ""[0..] == "";
    assert PrefixRun("", Digits) == 0;
    assert ""[..0] == "";
  }

  /** The first digit of a digit-free prefix followed by a digit is right
      after the prefix. */
  lemma FirstDigitAfter(pre: string, x: string)
    requires forall i :: 0 <= i < |pre| ==> !IsDigit(pre[i])
    requires |x| > 0 && IsDigit(x[0])
    ensures FirstDigit(pre + x) == |pre|
  {
    var s := pre + x;
    var k := FirstDigit(s);
    assert s[|pre|] == x[0];
  }

  /** `\/?` takes the slash when there is one. */
  lemma StripSlash(sl: string, tail: string)
    requires sl == "" || sl == "/"
    requires sl == "" ==> |tail| == 0 || tail[0] != '/'
    ensures var after := sl + tail;
      (if |after| > 0 && after[0] == '/' then after[1..] else after) == tail
  {
    if sl == "/" {
      assert (sl + tail)[1..] == tail;
    } else {
      assert sl + tail == tail;
    }
  }

  /** `\s*([0-9]+)?` on white space, digits and a text that extends
      neither: the digits' value, 0 when there are none. */
  lemma SpacesThenDigits(ws: string, ms: string, rest: string)
    requires forall i :: 0 <= i < |ws| ==> IsJsSpace(ws[i])
    requires AllDigits(ms)
    requires |rest| == 0 || !IsDigit(rest[0])
    requires ms == "" ==> |rest| == 0 || !IsJsSpace(rest[0])
    ensures var tail := ws + (ms + rest);
      RunValue(tail[PrefixRun(tail, Spaces)..]) == DecimalValue(ms)
  {
    var tail := ws + (ms + rest);
    if |ms| > 0 {
      assert (ms + rest)[0] == ms[0];
    } else {
      assert ms + rest == rest;
    }
    PrefixRunConcat(ws, ms + rest, Spaces);
    assert tail[|ws|..] == ms + rest;
    if |ms| > 0 {
      RunValueReads(ms, rest);
    } else {
      assert PrefixRun(rest, Digits) == 0;
      assert rest[..0] == "";
    }
  }

  /** What `([0-9]+)?` captures after `\/?\s*`: an optional slash, the
      longest run of white space, then the longest run of digits, which may
      be empty (count 0).  Any text may follow, provided it does not extend
      the slash, the spaces or the digits. */
  lemma LegacyCountShape(sl: string, ws: string, ms: string, rest: string)
    requires sl == "" || sl == "/"
    requires forall i :: 0 <= i < |ws| ==> IsJsSpace(ws[i])
    requires AllDigits(ms)
    requires |rest| == 0 || !IsDigit(rest[0])
    requires ms == "" ==> |rest| == 0 || !IsJsSpace(rest[0])
    requires sl == "" && ws == "" && ms == "" ==> |rest| == 0 || rest[0] != '/'
    ensures LegacyCount(sl + ws + ms + rest) == DecimalValue(ms)
  {
    var tail := ws + (ms + rest);
    assert sl + ws + ms + rest == sl + tail;
    if sl == "" && |tail| > 0 {
      if |ws| > 0 {
        assert tail[0] == ws[0];
      } else if |ms| > 0 {
        assert tail[0] == ms[0];
      } else {
        assert tail == rest;
      }
    }
    StripSlash(sl, tail);
    SpacesThenDigits(ws, ms, rest);
  }


  /** The legacy `parseHash` on any hash that contains a digit: text without
      digits, the slide's digits, then whatever follows them.  The slide is
      the value of the first run of digits, and the count is read from the
      text after that run alone. */
  lemma LegacyParseReads(pre: string, ds: string, suf: string)
    requires forall i :: 0 <= i < |pre| ==> !IsDigit(pre[i])
    requires |ds| > 0 && AllDigits(ds)
    requires |suf| == 0 || !IsDigit(suf[0])
    ensures LegacyParse(pre + ds + suf) == Some(Locator(DecimalValue(ds), LegacyCount(suf)))
  {
    var h := pre + ds + suf;
    assert h == pre + (ds + suf);
    assert (ds + suf)[0] == ds[0];
    FirstDigitAfter(pre, ds + suf);
    var rest := h[|pre|..];
    assert rest == ds + suf;
    RunValueReads(ds, suf);
    assert rest[|ds|..] == suf;
  }

  /** The text after the slide's digits in `LegacyParseShape` does not
      start with a digit. */
  lemma CountTextStartsWell(sl: string, ws: string, ms: string, rest: string)
    requires sl == "" || sl == "/"
    requires forall i :: 0 <= i < |ws| ==> IsJsSpace(ws[i])
    requires ms != "" ==> sl + ws != ""
    requires |rest| == 0 || !IsDigit(rest[0])
    ensures var suf := sl + ws + ms + rest; |suf| == 0 || !IsDigit(suf[0])
  {
    var suf := sl + ws + ms + rest;
    if |sl| > 0 {
      assert suf[0] == sl[0];
    } else if |ws| > 0 {
      assert suf[0] == ws[0];
    } else {
      assert suf == rest;
    }
  }

  /** Both halves together: the slide is the first run of digits, the count
      the digits after an optional slash and white space, 0 when there are
      none. */
  lemma LegacyParseShape(pre: string, ds: string, sl: string, ws: string, ms: string, rest: string)
    requires forall i :: 0 <= i < |pre| ==> !IsDigit(pre[i])
    requires |ds| > 0 && AllDigits(ds)
    requires sl == "" || sl == "/"
    requires forall i :: 0 <= i < |ws| ==> IsJsSpace(ws[i])
    requires AllDigits(ms) && (ms != "" ==> sl + ws != "")
    requires |rest| == 0 || !IsDigit(rest[0])
    requires ms == "" ==> |rest| == 0 || !IsJsSpace(rest[0])
    requires sl == "" && ws == "" && ms == "" ==> |rest| == 0 || rest[0] != '/'
    ensures LegacyParse(pre + ds + sl + ws + ms + rest) == Some(Locator(DecimalValue(ds), DecimalValue(ms)))
  {
    var suf := sl + ws + ms + rest;
    assert pre + ds + sl + ws + ms + rest == pre + ds + suf;
    CountTextStartsWell(sl, ws, ms, rest);
    LegacyParseReads(pre, ds, suf);
    LegacyCountShape(sl, ws, ms, rest);
  }

  /** Every fragment except the empty one at the start reads back, through
      `location.hash`, as the position that wrote it. */
  lemma LegacyRoundTrip(index: nat, count: nat)
    requires index != 0 || count != 0
    ensures LegacyParse(LocationHashOf(Fragment(index, count))) == Some(Locator(index, count))
  {
    var ds := NatToDecimal(index);
    var f := Fragment(index, count);
    var suffix := if count != 0 then "/" + NatToDecimal(count) else "";
    assert f == ds + suffix;
    var h := LocationHashOf(f);
    assert h == "#" + f && h[1..] == f;
    assert FirstDigit(h[1..]) == 0;
    assert FirstDigit(h) == 1;
    RunValueReads(ds, suffix);
    assert f[|ds|..] == suffix;
    if count != 0 {
      LegacyCountReads(NatToDecimal(count));
    } else {
      LegacyCountEmpty();
    }
  }

  /** The start position writes the empty fragment, which has no digit, so
      the `hashchange` it causes is ignored: going back to the start does
      not move the presentation, and the address bar no longer names the
      displayed slide. */
  lemma LegacyBackToStartIgnored(p: LegacyPres)
    requires LReady(p) && p.currentSlide != 0
    ensures LegacyParse(LocationHashOf(Fragment(0, 0))).None?
    ensures var q := LHashChange(p, "");
      && q.currentSlide == p.currentSlide && q.slides == p.slides && q.history == p.history
      && !LSynced(q)
  {
    assert LocationHashOf(Fragment(0, 0)) == "";
    var q := LHashChange(p, "");
    var f := Fragment(q.currentSlide, q.slides[q.currentSlide].currentIndex);
    assert f != "";
  }

  /** The `hashchange` that follows the presenter's own write finds the
      position it already shows and changes nothing. */
  lemma LegacyEchoIsNoOp(p: LegacyPres)
    requires LReady(p) && LSynced(p)
    ensures LHashChange(p, p.locationHash) == p
  {
    var cur := p.currentSlide;
    var count := p.slides[cur].currentIndex;
    if cur != 0 || count != 0 {
      LegacyRoundTrip(cur, count);
    } else {
      assert p.locationHash == "";
    }
  }

  /** `currentSlide.moveTo(index)`: a count outside the current slide moves
      to the previous or next slide; otherwise the current slide takes the
      new target and starts its step loop unless a running step will pick
      the target up, and no other slide changes. */
  lemma LItemMoveToEffect(p: LegacyPres, index: int)
    requires LReady(p)
    ensures var s := p.slides[p.currentSlide];
      var q := LItemMoveTo(p, index);
      && (index < 0 ==> q == LSlideMoveBy(p, -1))
      && (index > s.Count() ==> q == LSlideMoveBy(p, 1))
      && (0 <= index <= s.Count() ==>
        && q.currentSlide == p.currentSlide
        && q.slides[p.currentSlide].targetIndex == index
        && q.slides[p.currentSlide]
           == (if s.isAnimating then s.(targetIndex := index) else DoStep(s.(targetIndex := index)).0)
        && (forall j :: 0 <= j < |p.slides| && j != p.currentSlide ==> q.slides[j] == p.slides[j]))
  {
    var s := p.slides[p.currentSlide];
    var m := MoveTo(s, index);
    var p1 := p.(slides := p.slides[p.currentSlide := m.0]);
    assert LItemMoveTo(p, index) == LRunRequest(p1, p.currentSlide, m.1);
    if index < 0 || index > s.Count() {
      assert p.slides[p.currentSlide := s] == p.slides;
      assert p1 == p;
    }
  }

  /** A completion re-enters slide `i`'s loop: on a valid slide that is its
      next step, with no other slide and no slide change involved. */
  lemma LCompleteEffect(p: LegacyPres, i: int)
    requires LReady(p) && 0 <= i < |p.slides| && p.slides[i].Valid()
    ensures var q := LComplete(p, i);
      && q.slides == p.slides[i := DoStep(p.slides[i]).0]
      && q.currentSlide == p.currentSlide
  {
    var m := DoStep(p.slides[i]);
    assert !m.1.ChangeSlide?;
  }

  /** End, away from the last slide, moves to the last slide with every
      earlier slide full and the last one empty. */
  lemma LEndKeyGoesToLastSlide(p: LegacyPres)
    requires LReady(p) && p.currentSlide < |p.slides| - 1
    ensures var q := LEndKey(p);
      && q.currentSlide == |p.slides| - 1
      && (forall j :: 0 <= j < |p.slides| - 1 ==> q.slides[j].currentIndex == q.slides[j].Count())
      && q.slides[|p.slides| - 1].currentIndex == 0
  {
    WrapFromEnd(1, |p.slides|);
  }

  /** End on the last slide sets out to reveal all of its items: the slide
      stays current and its target becomes its item count. */
  lemma LEndKeyOnLastSlide(p: LegacyPres)
    requires LReady(p) && AllValid(p.slides) && p.currentSlide == |p.slides| - 1
    ensures var q := LEndKey(p);
      && q.currentSlide == p.currentSlide
      && q.slides[q.currentSlide].targetIndex == q.slides[q.currentSlide].Count()
  {
    var s := p.slides[p.currentSlide];
    var (s1, r) := MoveTo(s, s.Count());
    assert !r.ChangeSlide?;
  }

  /** Page Down from a slide that still hides items writes twice: first the
      old slide, filled, then the new slide, empty; from a full slide it
      writes once. */
  lemma LegacyNextSlideWrites(p: LegacyPres)
    requires LReady(p) && p.currentSlide + 1 < |p.slides|
    ensures var cur := p.currentSlide;
      var s := p.slides[cur];
      var q := LSlideMoveBy(p, 1);
      && q.currentSlide == cur + 1
      && (s.currentIndex < s.Count() ==>
            q.history == p.history + [Fragment(cur, s.Count()), Fragment(cur + 1, 0)])
      && (s.currentIndex == s.Count() ==>
            q.history == p.history + [Fragment(cur + 1, 0)])
  {
    var cur := p.currentSlide;
    var q := LSlideMoveBy(p, 1);
    assert q == LSlideMoveTo(p, cur + 1);
    assert q.slides[cur + 1] == Arrive(p.slides[cur + 1], cur + 1, cur + 1, cur);
  }

  /** The Back button to slide `t`, away from a slide showing items, writes
      three new history entries: the old slide cleared, slide `t` filled,
      then slide `t` emptied by the jump, so the browser's forward history
      is lost. */
  lemma LegacyBackWritesThrice(p: LegacyPres, t: nat)
    requires LReady(p) && 0 < t < p.currentSlide
    requires p.slides[p.currentSlide].currentIndex > 0 && p.slides[t].Count() > 0
    ensures var q := LHashChange(p, LocationHashOf(Fragment(t, 0)));
      && q.currentSlide == t && q.slides[t].currentIndex == 0
      && q.history == p.history
         + [Fragment(p.currentSlide, 0), Fragment(t, p.slides[t].Count()), Fragment(t, 0)]
  {
    var hash := LocationHashOf(Fragment(t, 0));
    LegacyRoundTrip(t, 0);
    var p1 := p.(locationHash := hash);
    BackwardMove(p1, t);
    LHashChangeReads(p, hash, Locator(t, 0));
  }

  /** A hash that reads as a position moves there and jumps to its count. */
  lemma LHashChangeReads(p: LegacyPres, hash: string, l: Locator)
    requires LReady(p) && LegacyParse(hash) == Some(l)
    ensures LHashChange(p, hash) == LJumpCurrentTo(LSeekSlide(p.(locationHash := hash), l.slide), l.item)
  {
  }

  /** The move of a backward `hashchange`: the old slide writes itself
      cleared, then slide `t` writes itself full. */
  lemma BackwardMove(p: LegacyPres, t: nat)
    requires LReady(p) && 0 < t < p.currentSlide
    requires p.slides[p.currentSlide].currentIndex > 0 && p.slides[t].Count() > 0
    ensures var q := LSlideMoveTo(p, t);
      && LSeekSlide(p, t) == q
      && q.currentSlide == t && q.slides[t].currentIndex == p.slides[t].Count()
      && q.history == p.history + [Fragment(p.currentSlide, 0)] + [Fragment(t, p.slides[t].Count())]
  {
    var q := LSlideMoveTo(p, t);
    assert q.slides[t] == Arrive(p.slides[t], t, t, p.currentSlide);
    BackwardMidwayWrite(p.slides, t, p.currentSlide);
  }

  /** Leaving a slide that shows items for an earlier slide clears it, and
      it writes that cleared position while it is still current. */
  lemma BackwardMidwayWrite(slides: seq<Slide>, t: nat, from: nat)
    requires AllShaped(slides) && t < from < |slides| && slides[from].currentIndex > 0
    ensures MidwayWrites(slides, t, from) == [Fragment(from, 0)]
  {
    assert Arrive(slides[from], from, t, from).currentIndex == 0;
  }

  /** A `hashchange` keeps every slide valid when the count it names fits
      the slide it leaves current: the named slide, or the current one when
      no slide has that index. */
  lemma LHashChangeKeepsValid(p: LegacyPres, hash: string)
    requires LReady(p) && AllValid(p.slides)
    requires LegacyParse(hash).Some? ==>
      var l := LegacyParse(hash).value;
      l.item <= p.slides[if l.slide < |p.slides| then l.slide else p.currentSlide].Count()
    ensures var q := LHashChange(p, hash);
      LReady(q) && AllValid(q.slides)
  {
    if LegacyParse(hash).Some? {
      var l := LegacyParse(hash).value;
      var p2 := LSeekSlide(p.(locationHash := hash), l.slide);
      var i := p2.currentSlide;
      var s := JumpTo(p2.slides[i], l.item).0;
      JumpToKeepsValid(p2.slides[i], l.item);
      var q := LJumpCurrentTo(p2, l.item);
      assert LHashChange(p, hash) == q;
      assert q.slides == p2.slides[i := s];
      forall j | 0 <= j < |q.slides| ensures q.slides[j].Valid() {
        if j != i {
          assert q.slides[j] == p2.slides[j];
        }
      }
      assert LReady(q) && AllValid(q.slides);
    } else {
      assert LHashChange(p, hash) == p.(locationHash := hash);
    }
  }

  /** A sequence of events on the earlier presenter; the run stops at a
      state outside `LReady`. */
  function LRun(p: LegacyPres, cs: seq<Command>): LegacyPres
    requires LReady(p)
    decreases |cs|
  {
    if |cs| == 0 then p
    else
      var q := LStep(p, cs[0]);
      if LReady(q) then LRun(q, cs[1..]) else q
  }

  /** Key presses, wheel turns and completions keep the slides valid and the
      address bar showing the displayed position. */
  lemma {:induction false} LRunKeepsValidAndSync(p: LegacyPres, cs: seq<Command>)
    requires LReady(p) && AllValid(p.slides) && LSynced(p) && NoHashChanges(cs)
    ensures var q := LRun(p, cs);
      LReady(q) && AllValid(q.slides) && LSynced(q)
    decreases |cs|
  {
    if |cs| > 0 {
      var q := LStep(p, cs[0]);
      assert NoHashChanges(cs[1..]) by {
        forall i | 0 <= i < |cs[1..]| ensures !cs[1..][i].HashChanged? {
          assert cs[1..][i] == cs[i + 1];
        }
      }
      LRunKeepsValidAndSync(q, cs[1..]);
    }
  }
}

=== FILE: navigation.dfy ===
/**
  Slide-level arithmetic shared by both snapshots of the presenter:
  where `slideMoveTo` lands after wraparound, which slides it fills, and
  which slide containers it keeps in the layout.
 */
module Navigation {
  import opened JsBasics
  import opened Optional

  /** The index `slideMoveTo(t)` looks up among `len` slides: a negative
      index wraps as `len + t % len` with JavaScript's truncating `%`.
      With no slides `t % 0` is NaN and no slide is found; `t` itself
      (negative) stands for that here. */
  function Wrap(t: int, len: nat): (w: int)
    ensures t >= 0 ==> w == t
    ensures t < 0 && len > 0 ==> 0 < w <= len && w - t == (1 - JsQuot(t, len)) * len
    ensures w < 0 ==> len == 0
  {
    if t >= 0 then t
    else if len == 0 then t
    else len + JsRem(t, len)
  }

  /** Whether index `w` names one of `len` slides (`this.slides[w]` is defined). */
  predicate Lands(w: int, len: nat) { 0 <= w < len }

  /** `slideMoveBy(offset)`: the index passed to `slideMoveTo`, or nothing
      when it would be negative. */
  function MoveByTarget(current: int, offset: int): (t: Option<int>)
    ensures t.Some? <==> current + offset >= 0
    ensures t.Some? ==> t.value == current + offset
  {
    if current + offset >= 0 then Some(current + offset) else None
  }

  /** Slide `i` is filled when the move lands on `t` coming from slide
      `from`: every slide before the target, and the target itself when it
      is approached from above. */
  predicate FillsOnArrival(i: int, t: int, from: int)
  {
    i < t || (i == t && t < from)
  }

  function Min(a: int, b: int): int { if a <= b then a else b }
  function Max(a: int, b: int): int { if a <= b then b else a }

  /** Slide `i`'s container stays in the layout for a move between `lo` and
      `hi` (the smaller and larger of the old and new indices): it is hidden
      when it lies outside the range and not next to it, or deep inside a
      long range. */
  predicate OnStage(i: int, lo: int, hi: int)
  {
    !((i < lo - 1 || i > hi + 1) || (i > lo + 5 && i < hi - 5))
  }

  // -----------------------------------------------------------------------
  // Properties

  /** The culling rule restated as what it keeps: slides within the range
      widened by one that lie within five of its lower end or five of its
      upper end. */
  lemma OnStageBands(i: int, lo: int, hi: int)
    ensures OnStage(i, lo, hi) <==> lo - 1 <= i <= hi + 1 && (i <= lo + 5 || i >= hi - 5)
  {
  }

  /** The slides on either side of the move, and their neighbours, always
      stay in the layout, so the slide animation has something to show. */
  lemma EndpointsStayOnStage(from: int, to: int, i: int)
    requires from - 1 <= i <= from + 1 || to - 1 <= i <= to + 1
    ensures OnStage(i, Min(from, to), Max(from, to))
  {
  }

  /** Wraparound lands `k` slides from the end for `1 <= k < len`; `-1` is
      the last slide. */
  lemma WrapFromEnd(k: int, len: nat)
    requires 1 <= k < len
    ensures Wrap(-k, len) == len - k
    ensures Lands(Wrap(-k, len), len)
  {
  }

  /** Because the remainder truncates, `-len` (or any negative multiple
      reached through `-len`) wraps to `len`, one past the last slide, so
      `slideMoveTo(-len)` finds no slide and does nothing. */
  lemma WrapMinusLengthMisses(len: nat)
    requires len > 0
    ensures Wrap(-(len as int), len) == len
    ensures !Lands(Wrap(-(len as int), len), len)
  {
  }
}

=== FILE: optional.dfy ===
/** An optional value: `None` where the source yields `false`, `undefined`
    or nothing at all. */
module Optional {
  datatype Option<T> = None | Some(value: T)
  {
    /** The value, or `fallback` when there is none. */
    function GetOr(fallback: T): (r: T)
      ensures Some? ==> r == value
      ensures None? ==> r == fallback
    {
      match this
      case Some(v) => v
      case None => fallback
    }
  }
}

=== FILE: presentation.dfy ===
/**
  The presentation of `jqPresentation.js`: the ordered slides, the current
  slide, the nestable hash-suppression counter, and the address bar
  (`location.hash` and the calls made on browser history).  Each user or
  browser event is a pure transition on an immutable `Pres` record.

  Departure from the code: where the source's `parseHash` raises a
  TypeError (an identifier token missing from `idMap`), this model reads
  the position as the start (`Locate`).  The code as written is modelled
  by `ParseHash`, `HashChangeAsWritten`, `UpdateHashAsWritten` and
  `ConstructAsWritten`; `Findings` shows the difference.
 */
module Presentation {
  import opened JsBasics
  import opened Optional
  import opened Slides
  import opened Navigation
  import opened HashCodec

  /** A call made on `location`: `location.replace("#" + f)` rewrites the
      current history entry, `location.hash = f` adds a new one. */
  datatype HistoryCall = Replace(fragment: string) | Assign(fragment: string)

  /** - slides: the slides in document order;
      - currentSlide: index of `currentSlide`, or -1 for the prototype's
        placeholder slide that is current until the first `slideMoveTo`;
      - hashSuppressionCount: open `beginNavigation` calls;
      - locationHash: what `location.hash` reads;
      - history: the calls made on `location`, oldest first;
      - idMap: the identifier table built by the constructor. */
  datatype Pres = Pres(
    slides: seq<Slide>,
    currentSlide: int,
    hashSuppressionCount: nat,
    locationHash: string,
    history: seq<HistoryCall>,
    idMap: map<string, Locator>)

  /** The logical commands: arrow keys and the mouse wheel move items,
      Page Up/Down move slides, Home and End; an animation completing on a
      slide; the browser reporting a new hash. */
  datatype Command =
    | ItemStep(offset: int)
    | SlideStep(offset: int)
    | Home
    | End
    | Completed(slide: int)
    | HashChanged(hash: string)

  // -----------------------------------------------------------------------
  // State predicates

  function Shapes(slides: seq<Slide>): (r: seq<Shape>)
    ensures |r| == |slides| && forall i :: 0 <= i < |slides| ==> r[i] == slides[i].shape
  {
    seq(|slides|, i requires 0 <= i < |slides| => slides[i].shape)
  }

  predicate AllShaped(slides: seq<Slide>)
  {
    forall i :: 0 <= i < |slides| ==> slides[i].Shaped()
  }

  predicate AllCounted(slides: seq<Slide>)
  {
    forall i :: 0 <= i < |slides| ==> slides[i].Counted()
  }

  predicate AllValid(slides: seq<Slide>)
  {
    forall i :: 0 <= i < |slides| ==> slides[i].Valid()
  }

  /** The current slide exists and its displayed count can be written. */
  predicate HashReady(p: Pres)
  {
    0 <= p.currentSlide < |p.slides| && p.slides[p.currentSlide].Counted()
  }

  /** The states every command is defined on: a real current slide and every
      displayed count within its slide. */
  predicate Ready(p: Pres)
  {
    0 <= p.currentSlide < |p.slides| && AllCounted(p.slides)
  }

  /** The invariant of a presentation between events. */
  predicate Inv(p: Pres)
  {
    && Ready(p)
    && AllValid(p.slides)
    && p.hashSuppressionCount == 0
    && p.idMap == BuildIdMap(Shapes(p.slides))
  }

  /** Same slides, same document, same identifier table. */
  predicate SameDocument(p: Pres, q: Pres)
  {
    && |q.slides| == |p.slides|
    && (forall j :: 0 <= j < |p.slides| ==> q.slides[j].shape == p.slides[j].shape)
    && q.idMap == p.idMap
  }

  /** The address bar names the displayed position. */
  predicate Synced(p: Pres)
  {
    && HashReady(p)
    && Locate(p.locationHash, p.idMap)
       == Locator(p.currentSlide, p.slides[p.currentSlide].currentIndex)
  }

  // -----------------------------------------------------------------------
  // The hash

  /** `getHash` for the current slide. */
  function CurrentHash(p: Pres): string
    requires HashReady(p)
  {
    var s := p.slides[p.currentSlide];
    GetHash(p.currentSlide, s.shape, s.currentIndex)
  }

  /** The address bar after one unsuppressed `updateHash` that started from
      `prevHash` and `prevHistory` and ended in state `q`. */
  predicate Refreshed(prevHash: string, prevHistory: seq<HistoryCall>, q: Pres)
    requires HashReady(q)
  {
    var h := CurrentHash(q);
    if prevHash == "#" + h then q.locationHash == prevHash && q.history == prevHistory
    else
      && q.locationHash == LocationHashOf(h)
      && q.history == prevHistory
         + [if Locate(prevHash, q.idMap).slide == q.currentSlide then Replace(h) else Assign(h)]
  }

  /** No `updateHash` wrote, and the position the hash names did not move. */
  predicate Untouched(p: Pres, q: Pres)
    requires HashReady(p) && HashReady(q)
  {
    && q.locationHash == p.locationHash && q.history == p.history
    && q.currentSlide == p.currentSlide
    && q.slides[q.currentSlide].currentIndex == p.slides[p.currentSlide].currentIndex
  }

  /** What one unsuppressed event may do to the address bar. */
  predicate AddressOutcome(p: Pres, q: Pres)
    requires HashReady(p) && HashReady(q)
  {
    Untouched(p, q) || Refreshed(p.locationHash, p.history, q)
  }

  /** `updateHash`: nothing while navigation is suppressed or when the
      address bar already shows the fragment; otherwise the fragment is
      written, rewriting the history entry when the address bar's slide is
      the current slide and adding an entry when it is not. */
  function UpdateHash(p: Pres): (q: Pres)
    requires p.hashSuppressionCount != 0 || HashReady(p)
    ensures q == p.(locationHash := q.locationHash, history := q.history)
    ensures p.hashSuppressionCount != 0 ==> q == p
    ensures p.hashSuppressionCount == 0 ==> Refreshed(p.locationHash, p.history, q)
  {
    if p.hashSuppressionCount != 0 then p
    else
      var h := CurrentHash(p);
      if p.locationHash == "#" + h then p
      else
        var call := if Locate(p.locationHash, p.idMap).slide == p.currentSlide then Replace(h) else Assign(h);
        p.(locationHash := LocationHashOf(h), history := p.history + [call])
  }

  /** `beginNavigation`: opens a navigation, inside which `updateHash`
      writes nothing; `endNavigation(true)`, which skips the refresh, closes
      it again. */
  function BeginNavigation(p: Pres): (q: Pres)
    ensures q == p.(hashSuppressionCount := p.hashSuppressionCount + 1)
    ensures UpdateHash(q) == q
    ensures EndNavigation(q, false) == p
  {
    p.(hashSuppressionCount := p.hashSuppressionCount + 1)
  }

  /** `endNavigation(dontUpdate)` */
  function EndNavigation(p: Pres, update: bool): (q: Pres)
    requires p.hashSuppressionCount >= 1
    requires update && p.hashSuppressionCount == 1 ==> HashReady(p)
    ensures q.hashSuppressionCount == p.hashSuppressionCount - 1
    ensures q == p.(hashSuppressionCount := q.hashSuppressionCount, locationHash := q.locationHash, history := q.history)
    ensures !update || p.hashSuppressionCount > 1 ==> q.locationHash == p.locationHash && q.history == p.history
    ensures update && p.hashSuppressionCount == 1 ==> Refreshed(p.locationHash, p.history, q)
  {
    var p1 := p.(hashSuppressionCount := p.hashSuppressionCount - 1);
    if update then UpdateHash(p1) else p1
  }

  // -----------------------------------------------------------------------
  // Slide orchestration

  /** What the loop of `slideMoveTo(t)`, run while `from` is current, makes
      of slide `j`: filled or cleared, and kept in or taken out of the
      layout. */
  function Arrive(s: Slide, j: int, t: int, from: int): (r: Slide)
    requires s.Shaped()
    ensures r.shape == s.shape && r.isAnimating == s.isAnimating && r.Counted()
    ensures r.currentIndex == (if FillsOnArrival(j, t, from) then s.Count() else 0)
    ensures r.onStage == OnStage(j, Min(from, t), Max(from, t))
    ensures s.Valid() ==> r.Valid()
    ensures !s.isAnimating && s.Valid() ==> r.Settled()
  {
    var filled := if FillsOnArrival(j, t, from) then Fill(s).0 else Clear(s).0;
    filled.(onStage := OnStage(j, Min(from, t), Max(from, t)))
  }

  /** The loop of `slideMoveTo` from slide `i` on.  It runs inside a
      navigation, so the `updateHash` each `fill`/`clear` makes is
      suppressed. */
  function SettleFrom(p: Pres, t: nat, i: nat): (q: Pres)
    requires t < |p.slides| && i <= |p.slides|
    requires p.hashSuppressionCount > 0 && AllShaped(p.slides)
    ensures q == p.(slides := q.slides)
    ensures |q.slides| == |p.slides|
    ensures forall j :: 0 <= j < i ==> q.slides[j] == p.slides[j]
    ensures forall j :: i <= j < |p.slides| ==> q.slides[j] == Arrive(p.slides[j], j, t, p.currentSlide)
    decreases |p.slides| - i
  {
    if i == |p.slides| then p
    else
      var s := p.slides[i];
      var (s1, changed) := if FillsOnArrival(i, t, p.currentSlide) then Fill(s) else Clear(s);
      var p1 := p.(slides := p.slides[i := s1]);
      var p2 := if changed then UpdateHash(p1) else p1;
      var lo := Min(p.currentSlide, t);
      var hi := Max(p.currentSlide, t);
      var p3 := p2.(slides := p2.slides[i := p2.slides[i].(onStage := OnStage(i, lo, hi))]);
      SettleFrom(p3, t, i + 1)
  }

  /** `slideMoveTo(targetIndex)`: wrap a negative index, do nothing when no
      slide has the index, else settle every slide, make the target current
      and refresh the hash once the navigation ends. */
  function SlideMoveTo(p: Pres, targetIndex: int): (q: Pres)
    requires -1 <= p.currentSlide < |p.slides| && AllShaped(p.slides)
    ensures var t := Wrap(targetIndex, |p.slides|);
      && (!Lands(t, |p.slides|) ==> q == p)
      && (Lands(t, |p.slides|) ==>
        && q.currentSlide == t
        && |q.slides| == |p.slides|
        && (forall j :: 0 <= j < |p.slides| ==> q.slides[j] == Arrive(p.slides[j], j, t, p.currentSlide))
        && q.hashSuppressionCount == p.hashSuppressionCount
        && q.idMap == p.idMap
        && Ready(q)
        && (p.hashSuppressionCount != 0 ==> q.locationHash == p.locationHash && q.history == p.history)
        && (p.hashSuppressionCount == 0 ==> Refreshed(p.locationHash, p.history, q)))
  {
    var t := Wrap(targetIndex, |p.slides|);
    if !Lands(t, |p.slides|) then p
    else
      var p1 := BeginNavigation(p);
      var p2 := SettleFrom(p1, t, 0);
      var p3 := UpdateHash(p2.(currentSlide := t));
      EndNavigation(p3, true)
  }

  /** `slideMoveBy(offset)`: never wraps; a move below slide 0 is dropped. */
  function SlideMoveBy(p: Pres, offset: int): (q: Pres)
    requires Ready(p)
    ensures p.currentSlide + offset < 0 ==> q == p
    ensures p.currentSlide + offset >= 0 ==> q == SlideMoveTo(p, p.currentSlide + offset)
    ensures p.currentSlide + offset >= |p.slides| ==> q == p
    ensures 0 <= p.currentSlide + offset < |p.slides| ==> q.currentSlide == p.currentSlide + offset
    ensures Ready(q) && SameDocument(p, q)
  {
    match MoveByTarget(p.currentSlide, offset)
    case None => p
    case Some(t) => SlideMoveTo(p, t)
  }

  /** Carry out what a slide asked for after one of its operations. */
  function RunRequest(p: Pres, r: Request): (q: Pres)
    requires Ready(p)
    ensures Ready(q) && SameDocument(p, q) && q.hashSuppressionCount == p.hashSuppressionCount
    ensures AllValid(p.slides) ==> AllValid(q.slides)
    ensures r.Idle? ==> q == p
    ensures p.hashSuppressionCount == 0 && (r.Reveal? || r.Conceal?) ==> Refreshed(p.locationHash, p.history, q)
    ensures p.hashSuppressionCount == 0 ==> q == p || Refreshed(p.locationHash, p.history, q)
    ensures p.hashSuppressionCount != 0 ==> q.locationHash == p.locationHash && q.history == p.history
    ensures !r.ChangeSlide? ==> q.slides == p.slides && q.currentSlide == p.currentSlide
    ensures r.ChangeSlide? ==> q == SlideMoveBy(p, r.offset)
  {
    match r
    case Idle => p
    case Reveal(_) => UpdateHash(p)
    case Conceal(_) => UpdateHash(p)
    case ChangeSlide(d) => SlideMoveBy(p, d)
  }

  /** `currentSlide.moveTo(index)`; its effect is stated by
      `ItemMoveToEffect`. */
  function ItemMoveTo(p: Pres, index: int): (q: Pres)
    requires Ready(p)
    ensures Ready(q) && SameDocument(p, q) && q.hashSuppressionCount == p.hashSuppressionCount
    ensures AllValid(p.slides) ==> AllValid(q.slides)
    ensures p.hashSuppressionCount == 0 ==> AddressOutcome(p, q)
    ensures p.hashSuppressionCount != 0 ==> q.locationHash == p.locationHash && q.history == p.history
  {
    var (s, r) := MoveTo(p.slides[p.currentSlide], index);
    RunRequest(p.(slides := p.slides[p.currentSlide := s]), r)
  }

  /** `itemMoveBy(offset)`: `currentSlide.moveBy(offset)`, relative to the
      current slide's target count. */
  function ItemMoveBy(p: Pres, offset: int): (q: Pres)
    requires Ready(p)
    ensures Ready(q) && SameDocument(p, q) && q.hashSuppressionCount == p.hashSuppressionCount
    ensures AllValid(p.slides) ==> AllValid(q.slides)
    ensures p.hashSuppressionCount == 0 ==> AddressOutcome(p, q)
    ensures p.hashSuppressionCount != 0 ==> q.locationHash == p.locationHash && q.history == p.history
  {
    ItemMoveTo(p, p.slides[p.currentSlide].targetIndex + offset)
  }

  /** The completion of slide `i`'s running step re-enters its loop
      (`CompleteEffect`). */
  function Complete(p: Pres, i: int): (q: Pres)
    requires Ready(p) && 0 <= i < |p.slides|
    ensures Ready(q) && SameDocument(p, q) && q.hashSuppressionCount == p.hashSuppressionCount
    ensures AllValid(p.slides) ==> AllValid(q.slides)
    ensures p.hashSuppressionCount == 0 ==> AddressOutcome(p, q)
    ensures p.hashSuppressionCount != 0 ==> q.locationHash == p.locationHash && q.history == p.history
  {
    var (s, r) := DoStep(p.slides[i]);
    RunRequest(p.(slides := p.slides[i := s]), r)
  }

  /** `currentSlide.jumpTo(index)`, refreshing the hash when it changed
      anything; inside a navigation that refresh is suppressed. */
  function JumpCurrentTo(p: Pres, index: int): (q: Pres)
    requires 0 <= p.currentSlide < |p.slides| && AllShaped(p.slides)
    requires p.hashSuppressionCount != 0
    ensures q == p.(slides := p.slides[p.currentSlide := JumpTo(p.slides[p.currentSlide], index).0])
    ensures SameDocument(p, q) && AllShaped(q.slides)
    ensures q.slides[q.currentSlide].currentIndex == index
  {
    var (s, changed) := JumpTo(p.slides[p.currentSlide], index);
    var p1 := p.(slides := p.slides[p.currentSlide := s]);
    if changed then UpdateHash(p1) else p1
  }

  /** The End key: on the last slide reveal all its items, elsewhere go to
      the last slide (`slideMoveTo(-1)`). */
  function EndKey(p: Pres): (q: Pres)
    requires Ready(p)
    ensures Ready(q) && SameDocument(p, q) && q.hashSuppressionCount == p.hashSuppressionCount
    ensures AllValid(p.slides) ==> AllValid(q.slides)
    ensures p.hashSuppressionCount == 0 ==> AddressOutcome(p, q)
    ensures p.hashSuppressionCount != 0 ==> q.locationHash == p.locationHash && q.history == p.history
  {
    if p.currentSlide == |p.slides| - 1 then ItemMoveTo(p, p.slides[p.currentSlide].Count())
    else SlideMoveTo(p, -1)
  }

  /** The first half of the `hashchange` handler, inside its navigation:
      move to the named slide unless it is already current.  A slide index
      past the last slide leaves the presentation where it is. */
  function SeekSlide(p: Pres, slide: nat): (q: Pres)
    requires Ready(p) && p.hashSuppressionCount != 0
    ensures q.history == p.history && q.locationHash == p.locationHash
    ensures q.hashSuppressionCount == p.hashSuppressionCount
    ensures SameDocument(p, q) && Ready(q) && AllShaped(q.slides)
    ensures q.currentSlide == (if slide < |p.slides| then slide else p.currentSlide)
    ensures AllValid(p.slides) ==> AllValid(q.slides)
  {
    if slide != p.currentSlide then SlideMoveTo(p, slide) else p
  }

  /** The `hashchange` handler: read the position from the new hash, move
      to its slide unless it is already current, jump to its count, and end
      the navigation without writing the hash. */
  function HashChange(p: Pres, hash: string): (q: Pres)
    requires Ready(p)
    ensures var l := Locate(hash, p.idMap);
      && q.history == p.history && q.locationHash == hash
      && q.hashSuppressionCount == p.hashSuppressionCount
      && SameDocument(p, q)
      && q.currentSlide == (if l.slide < |p.slides| then l.slide else p.currentSlide)
      && q.slides[q.currentSlide].currentIndex == l.item
  {
    var l := Locate(hash, p.idMap);
    var p2 := SeekSlide(BeginNavigation(p.(locationHash := hash)), l.slide);
    var p3 := JumpCurrentTo(p2, l.item);
    EndNavigation(p3, false)
  }

  /** One event. */
  function Step(p: Pres, c: Command): (q: Pres)
    requires Ready(p)
    ensures SameDocument(p, q) && q.hashSuppressionCount == p.hashSuppressionCount
    ensures !c.HashChanged? ==> Ready(q) && (AllValid(p.slides) ==> AllValid(q.slides))
    ensures !c.HashChanged? && p.hashSuppressionCount == 0 ==> AddressOutcome(p, q)
    ensures p.hashSuppressionCount != 0 ==> q.history == p.history
  {
    match c
    case ItemStep(d) => ItemMoveBy(p, d)
    case SlideStep(d) => SlideMoveBy(p, d)
    case Home => SlideMoveTo(p, 0)
    case End => EndKey(p)
    case Completed(i) => if 0 <= i < |p.slides| && p.slides[i].isAnimating then Complete(p, i) else p
    case HashChanged(h) => HashChange(p, h)
  }

  /** The slide that is current after a `hashchange` to `l`: the named
      one, or the current one when no slide has that index, because
      `slideMoveTo` then returns without moving. */
  function Landing(p: Pres, l: Locator): int
  {
    if l.slide < |p.slides| then l.slide else p.currentSlide
  }

  /** Commands whose outcome stays inside the model: a new hash must name a
      count that the slide it leaves current can display (the source does
      not clamp it). */
  predicate Admissible(p: Pres, c: Command)
  {
    c.HashChanged? ==>
      var l := Locate(c.hash, p.idMap);
      var i := Landing(p, l);
      0 <= i < |p.slides| && l.item <= p.slides[i].Count()
  }

  /** Events that come from the keyboard, the wheel or the animator only. */
  predicate NoHashChanges(cs: seq<Command>)
  {
    forall i :: 0 <= i < |cs| ==> !cs[i].HashChanged?
  }

  /** A sequence of events; the run stops at a state outside `Ready`. */
  function Run(p: Pres, cs: seq<Command>): Pres
    requires Ready(p)
    decreases |cs|
  {
    if |cs| == 0 then p
    else
      var q := Step(p, cs[0]);
      if Ready(q) then Run(q, cs[1..]) else q
  }

  // -----------------------------------------------------------------------
  // Construction

  /** The presentation before its first `slideMoveTo`: every slide cleared,
      the placeholder current, one navigation open. */
  function Unsettled(shapes: seq<Shape>, hash: string): (p: Pres)
    ensures |p.slides| == |shapes| && Shapes(p.slides) == shapes && AllValid(p.slides)
    ensures forall i :: 0 <= i < |shapes| ==> p.slides[i] == Initial(shapes[i])
    ensures p.currentSlide == -1 && p.hashSuppressionCount == 1 && p.history == []
    ensures p.locationHash == hash && p.idMap == BuildIdMap(shapes)
  {
    var slides := seq(|shapes|, i requires 0 <= i < |shapes| => Initial(shapes[i]));
    assert Shapes(slides) == shapes;
    Pres(slides, -1, 1, hash, [], BuildIdMap(shapes))
  }

  /** The constructor, given the document's slides and the hash the page
      was opened with: move to the hash's slide without writing the hash,
      jump to its count.  `None` when no slide has that index: the source
      then calls `jumpTo` on the placeholder slide, whose `parent` has no
      `updateHash`, and throws. */
  function Construct(shapes: seq<Shape>, hash: string): (r: Option<Pres>)
    ensures var l := Locate(hash, BuildIdMap(shapes));
      && (r.Some? <==> l.slide < |shapes|)
      && (r.Some? ==>
        && r.value.currentSlide == l.slide
        && r.value.hashSuppressionCount == 0
        && r.value.history == []
        && r.value.locationHash == hash
        && r.value.idMap == BuildIdMap(shapes))
  {
    var p0 := Unsettled(shapes, hash);
    var l := Locate(hash, p0.idMap);
    var p1 := SlideMoveTo(p0, l.slide);
    if p1.currentSlide < 0 then None
    else
      var p2 := JumpCurrentTo(p1, l.item);
      Some(EndNavigation(p2, false))
  }

  // -----------------------------------------------------------------------
  // The code as written for an identifier missing from idMap

  /** The `hashchange` handler as written: when `parseHash` throws, the
      handler stops after `beginNavigation`, so the counter stays raised. */
  function HashChangeAsWritten(p: Pres, hash: string): (q: Pres)
    requires Ready(p)
    ensures ParseHash(hash, p.idMap).Some? ==> q == HashChange(p, hash)
    ensures ParseHash(hash, p.idMap).None? ==>
      q == p.(locationHash := hash, hashSuppressionCount := p.hashSuppressionCount + 1)
    ensures ParseHash(hash, p.idMap).None? ==>
      q.hashSuppressionCount != 0 && UpdateHash(q) == q && q.history == p.history
  {
    if ParseHash(hash, p.idMap).None? then BeginNavigation(p.(locationHash := hash))
    else HashChange(p, hash)
  }

  /** `updateHash` as written: the `parseHash` of the current hash throws
      before anything is written. */
  function UpdateHashAsWritten(p: Pres): (q: Pres)
    requires p.hashSuppressionCount != 0 || HashReady(p)
    ensures ParseHash(p.locationHash, p.idMap).Some? ==> q == UpdateHash(p)
    ensures ParseHash(p.locationHash, p.idMap).None? ==> q == p
  {
    if p.hashSuppressionCount != 0 || p.locationHash == "#" + CurrentHash(p) then p
    else if ParseHash(p.locationHash, p.idMap).None? then p
    else UpdateHash(p)
  }

  /** The constructor as written: the initial `parseHash` throwing leaves no
      presentation. */
  function ConstructAsWritten(shapes: seq<Shape>, hash: string): (r: Option<Pres>)
    ensures ParseHash(hash, BuildIdMap(shapes)).None? ==> r.None?
    ensures ParseHash(hash, BuildIdMap(shapes)).Some? ==> r == Construct(shapes, hash)
  {
    if ParseHash(hash, BuildIdMap(shapes)).None? then None else Construct(shapes, hash)
  }

  /** One event with the `hashchange` handler as written.  The other
      handlers reach `parseHash` only through an unsuppressed `updateHash`;
      `StepAsWritten` is meant for suppressed states, where `updateHash`
      returns before parsing. */
  function StepAsWritten(p: Pres, c: Command): (q: Pres)
    requires Ready(p)
    ensures SameDocument(p, q)
    ensures p.hashSuppressionCount != 0 ==> q.history == p.history && q.hashSuppressionCount != 0
  {
    match c
    case HashChanged(h) => HashChangeAsWritten(p, h)
    case _ => Step(p, c)
  }

  /** A sequence of events with the `hashchange` handler as written. */
  function RunAsWritten(p: Pres, cs: seq<Command>): Pres
    requires Ready(p)
    decreases |cs|
  {
    if |cs| == 0 then p
    else
      var q := StepAsWritten(p, cs[0]);
      if Ready(q) then RunAsWritten(q, cs[1..]) else q
  }
}

=== FILE: presentation_props.dfy ===
/**
  What the presentation promises across events: the invariant survives
  every event, the address bar keeps naming the displayed position, a slide
  change adds exactly one history entry while moves within a slide rewrite
  the current one, and the `hashchange` handler and the constructor never
  write the hash.
 */
module PresentationProps {
  import opened Optional
  import opened Slides
  import opened Navigation
  import opened HashCodec
  import opened Presentation

  /** The document's ids round-trip and the table was built from it. */
  predicate Document(p: Pres)
  {
    WellFormedIds(Shapes(p.slides)) && p.idMap == BuildIdMap(Shapes(p.slides))
  }

  lemma SameDocumentShapes(p: Pres, q: Pres)
    requires SameDocument(p, q)
    ensures Shapes(q.slides) == Shapes(p.slides)
    ensures Document(p) ==> Document(q)
  {
    assert Shapes(q.slides) == Shapes(p.slides);
  }

  /** The fragment the presentation writes reads back as the displayed
      position, both before the browser adds its `#` and after. */
  lemma CurrentHashRoundTrip(q: Pres)
    requires HashReady(q) && Document(q)
    ensures var here := Locator(q.currentSlide, q.slides[q.currentSlide].currentIndex);
      && Locate("#" + CurrentHash(q), q.idMap) == here
      && Locate(LocationHashOf(CurrentHash(q)), q.idMap) == here
  {
    GetHashRoundTrip(Shapes(q.slides), q.currentSlide, q.slides[q.currentSlide].currentIndex);
  }

  /** After any event that leaves the address bar `Untouched` or
      `Refreshed`, it names the displayed position again. */
  lemma OutcomeKeepsSync(p: Pres, q: Pres)
    requires Synced(p) && HashReady(q) && SameDocument(p, q) && Document(p)
    requires AddressOutcome(p, q)
    ensures Synced(q)
  {
    SameDocumentShapes(p, q);
    CurrentHashRoundTrip(q);
  }

  /** The history rule: moving to another slide adds one entry, moving
      within a slide rewrites the current entry or leaves it alone. */
  lemma OutcomeHistory(p: Pres, q: Pres)
    requires Synced(p) && HashReady(q) && SameDocument(p, q) && Document(p)
    requires AddressOutcome(p, q)
    ensures q.currentSlide != p.currentSlide ==>
      q.history == p.history + [Assign(CurrentHash(q))]
    ensures q.currentSlide == p.currentSlide ==>
      q.history == p.history || q.history == p.history + [Replace(CurrentHash(q))]
  {
    SameDocumentShapes(p, q);
    CurrentHashRoundTrip(q);
  }

  /** `hashchange` moves to the slide the new hash names, or stays on the
      current one when no slide has that index, shows the named count, and
      stays a valid, ready presentation when that count fits. */
  lemma HashChangeKeepsValid(p: Pres, hash: string)
    requires Ready(p) && AllValid(p.slides)
    requires Admissible(p, HashChanged(hash))
    ensures var q := HashChange(p, hash);
      Ready(q) && AllValid(q.slides)
  {
    var l := Locate(hash, p.idMap);
    var p2 := SeekSlide(BeginNavigation(p.(locationHash := hash)), l.slide);
    var i := p2.currentSlide;
    assert i == Landing(p, l);
    JumpToKeepsValid(p2.slides[i], l.item);
    var p3 := JumpCurrentTo(p2, l.item);
    assert AllValid(p3.slides) && Ready(p3) by {
      forall j | 0 <= j < |p3.slides| ensures p3.slides[j].Valid() {
        if j != i {
          assert p3.slides[j] == p2.slides[j];
        }
      }
    }
    assert HashChange(p, hash) == EndNavigation(p3, false);
  }

  // -----------------------------------------------------------------------
  // Item moves

  /** `currentSlide.moveTo(index)`: a count outside the current slide moves
      to the previous or next slide (`slideMoveBy(-1)` / `slideMoveBy(1)`);
      otherwise the current slide takes the new target and starts its step
      loop unless a running step will pick the target up, and no other
      slide changes. */
  lemma ItemMoveToEffect(p: Pres, index: int)
    requires Ready(p)
    ensures var s := p.slides[p.currentSlide];
      var q := ItemMoveTo(p, index);
      && (index < 0 ==> q == SlideMoveBy(p, -1))
      && (index > s.Count() ==> q == SlideMoveBy(p, 1))
      && (0 <= index <= s.Count() ==>
        && q.currentSlide == p.currentSlide
        && q.slides[p.currentSlide].targetIndex == index
        && q.slides[p.currentSlide]
           == (if s.isAnimating then s.(targetIndex := index) else DoStep(s.(targetIndex := index)).0)
        && (forall j :: 0 <= j < |p.slides| && j != p.currentSlide ==> q.slides[j] == p.slides[j]))
  {
    var s := p.slides[p.currentSlide];
    var m := MoveTo(s, index);
    var p1 := p.(slides := p.slides[p.currentSlide := m.0]);
    assert ItemMoveTo(p, index) == RunRequest(p1, m.1);
    if index < 0 || index > s.Count() {
      assert p.slides[p.currentSlide := s] == p.slides;
      assert p1 == p;
    }
  }

  /** `itemMoveBy(offset)`: the same, at the current slide's target count
      plus `offset`, so presses made while a step runs add up. */
  lemma ItemMoveByEffect(p: Pres, offset: int)
    requires Ready(p)
    ensures var s := p.slides[p.currentSlide];
      var t := s.targetIndex + offset;
      var q := ItemMoveBy(p, offset);
      && (t < 0 ==> q == SlideMoveBy(p, -1))
      && (t > s.Count() ==> q == SlideMoveBy(p, 1))
      && (0 <= t <= s.Count() ==>
        && q.currentSlide == p.currentSlide
        && q.slides[p.currentSlide].targetIndex == t
        && (forall j :: 0 <= j < |p.slides| && j != p.currentSlide ==> q.slides[j] == p.slides[j]))
  {
    ItemMoveToEffect(p, p.slides[p.currentSlide].targetIndex + offset);
  }

  /** A completion re-enters slide `i`'s loop: on a valid slide that is its
      next step, with no other slide and no slide change involved. */
  lemma CompleteEffect(p: Pres, i: int)
    requires Ready(p) && 0 <= i < |p.slides| && p.slides[i].Valid()
    ensures var q := Complete(p, i);
      && q.slides == p.slides[i := DoStep(p.slides[i]).0]
      && q.currentSlide == p.currentSlide
  {
    var m := DoStep(p.slides[i]);
    assert !m.1.ChangeSlide?;
  }

  /** Every admissible event keeps the invariant. */
  lemma StepKeepsInv(p: Pres, c: Command)
    requires Inv(p) && Admissible(p, c)
    ensures Inv(Step(p, c))
  {
    var q := Step(p, c);
    SameDocumentShapes(p, q);
    if c.HashChanged? {
      HashChangeKeepsValid(p, c.hash);
    }
  }

  /** Every admissible event, on a document whose ids round-trip, leaves the
      address bar naming the displayed position, provided a new hash names
      an existing slide (see `MissingSlideLosesSync`). */
  lemma StepKeepsSync(p: Pres, c: Command)
    requires Inv(p) && Document(p) && Synced(p) && Admissible(p, c)
    requires c.HashChanged? ==> Locate(c.hash, p.idMap).slide < |p.slides|
    ensures Synced(Step(p, c))
  {
    var q := Step(p, c);
    StepKeepsInv(p, c);
    if !c.HashChanged? {
      OutcomeKeepsSync(p, q);
    }
  }

  /** A hash that names no existing slide, such as `#99` in a shorter
      presentation, keeps the current slide and the invariant, but the bar
      then names a slide that is not shown, and no write corrects it. */
  lemma MissingSlideLosesSync(p: Pres, hash: string)
    requires Inv(p) && Admissible(p, HashChanged(hash))
    requires Locate(hash, p.idMap).slide >= |p.slides|
    ensures var q := Step(p, HashChanged(hash));
      && Inv(q)
      && q.currentSlide == p.currentSlide
      && q.slides[q.currentSlide].currentIndex == Locate(hash, p.idMap).item
      && q.locationHash == hash && q.history == p.history
      && !Synced(q)
  {
    StepKeepsInv(p, HashChanged(hash));
  }

  /** The history an event leaves: `hashchange` never writes; any other
      event adds one entry exactly when it changes slides and otherwise at
      most rewrites the current entry. */
  lemma StepHistory(p: Pres, c: Command)
    requires Inv(p) && Document(p) && Synced(p)
    ensures var q := Step(p, c);
      && (c.HashChanged? ==> q.history == p.history)
      && (!c.HashChanged? && q.currentSlide != p.currentSlide ==>
            q.history == p.history + [Assign(CurrentHash(q))])
      && (!c.HashChanged? && q.currentSlide == p.currentSlide ==>
            q.history == p.history || q.history == p.history + [Replace(CurrentHash(q))])
  {
    if !c.HashChanged? {
      OutcomeHistory(p, Step(p, c));
    }
  }

  /** The `hashchange` that follows the presenter's own write finds the
      position it already shows and changes nothing. */
  lemma EchoIsNoOp(p: Pres)
    requires Inv(p) && Synced(p)
    ensures HashChange(p, p.locationHash) == p
  {
    var l := Locate(p.locationHash, p.idMap);
    var p1 := BeginNavigation(p.(locationHash := p.locationHash));
    assert l.slide == p.currentSlide;
    assert JumpTo(p1.slides[p1.currentSlide], l.item).0 == p1.slides[p1.currentSlide];
    assert p1.slides[p1.currentSlide := p1.slides[p1.currentSlide]] == p1.slides;
  }

  /** Going back to the entry of the start, whose hash is empty, returns to
      the first slide with no item shown. */
  lemma BackToStart(p: Pres)
    requires Inv(p) && Document(p)
    ensures var q := HashChange(p, "");
      q.currentSlide == 0 && q.slides[0].currentIndex == 0 && Inv(q) && Synced(q)
  {
    IdMapKeys(Shapes(p.slides));
    assert HashKey("") == "" && "" !in p.idMap;
    assert Locate("", p.idMap) == Locator(0, 0);
    assert Admissible(p, HashChanged(""));
    HashChangeKeepsValid(p, "");
    var q := HashChange(p, "");
    SameDocumentShapes(p, q);
    CurrentHashRoundTrip(q);
    assert CurrentHash(q) == "";
  }

  /** A run of key presses, wheel turns and completions keeps the invariant
      and the address bar in step, and adds at most one history entry per
      event. */
  lemma {:induction false} RunKeepsInvAndSync(p: Pres, cs: seq<Command>)
    requires Inv(p) && Document(p) && Synced(p) && NoHashChanges(cs)
    ensures var q := Run(p, cs);
      Inv(q) && Document(q) && Synced(q) && |q.history| <= |p.history| + |cs|
    decreases |cs|
  {
    if |cs| > 0 {
      var q := Step(p, cs[0]);
      StepKeepsInv(p, cs[0]);
      StepKeepsSync(p, cs[0]);
      StepHistory(p, cs[0]);
      SameDocumentShapes(p, q);
      assert NoHashChanges(cs[1..]) by {
        forall i | 0 <= i < |cs[1..]| ensures !cs[1..][i].HashChanged? {
          assert cs[1..][i] == cs[i + 1];
        }
      }
      RunKeepsInvAndSync(q, cs[1..]);
    }
  }

  // -----------------------------------------------------------------------
  // Slide moves and the End key

  /** After `slideMoveTo`, every slide before the target shows all of its
      items, every slide after it none, and the target is full exactly when
      it was approached from a later slide; the slides near either end of
      the move stay in the layout. */
  lemma SlideMoveToLayout(p: Pres, t: nat)
    requires Ready(p) && t < |p.slides|
    ensures var q := SlideMoveTo(p, t);
      && q.currentSlide == t
      && (forall j :: 0 <= j < t ==> q.slides[j].currentIndex == q.slides[j].Count())
      && (forall j :: t < j < |q.slides| ==> q.slides[j].currentIndex == 0)
      && q.slides[t].currentIndex == (if t < p.currentSlide then q.slides[t].Count() else 0)
      && (forall j :: 0 <= j < |q.slides| && (p.currentSlide - 1 <= j <= p.currentSlide + 1 || t - 1 <= j <= t + 1) ==>
            q.slides[j].onStage)
  {
    var q := SlideMoveTo(p, t);
    forall j | 0 <= j < |q.slides| && (p.currentSlide - 1 <= j <= p.currentSlide + 1 || t - 1 <= j <= t + 1)
      ensures q.slides[j].onStage
    {
      EndpointsStayOnStage(p.currentSlide, t, j);
    }
  }

  /** End, away from the last slide, moves to the last slide with every
      earlier slide full and the last one empty. */
  lemma EndKeyGoesToLastSlide(p: Pres)
    requires Ready(p) && p.currentSlide < |p.slides| - 1
    ensures var q := EndKey(p);
      && q.currentSlide == |p.slides| - 1
      && (forall j :: 0 <= j < |p.slides| - 1 ==> q.slides[j].currentIndex == q.slides[j].Count())
      && q.slides[|p.slides| - 1].currentIndex == 0
  {
    WrapFromEnd(1, |p.slides|);
    SlideMoveToLayout(p, |p.slides| - 1);
  }

  /** End on the last slide sets out to reveal all of its items: the slide
      stays current and its target becomes its item count. */
  lemma EndKeyOnLastSlide(p: Pres)
    requires Ready(p) && AllValid(p.slides) && p.currentSlide == |p.slides| - 1
    ensures var q := EndKey(p);
      && q.currentSlide == p.currentSlide
      && q.slides[q.currentSlide].targetIndex == q.slides[q.currentSlide].Count()
  {
    var s := p.slides[p.currentSlide];
    var (s1, r) := MoveTo(s, s.Count());
    assert !r.ChangeSlide?;
  }

  // -----------------------------------------------------------------------
  // Construction

  /** The constructor's three steps when the opening slide exists. */
  lemma ConstructSteps(shapes: seq<Shape>, hash: string)
    requires Locate(hash, BuildIdMap(shapes)).slide < |shapes|
    ensures var p0 := Unsettled(shapes, hash);
      var l := Locate(hash, BuildIdMap(shapes));
      && SlideMoveTo(p0, l.slide).currentSlide == l.slide
      && Construct(shapes, hash)
        == Some(EndNavigation(JumpCurrentTo(SlideMoveTo(p0, l.slide), l.item), false))
  {
  }

  /** The constructor shows the position the opening hash names: earlier
      slides full, later slides empty, the named count on the named slide,
      and, on a document whose ids round-trip, an address bar that already
      names it. */
  lemma ConstructState(shapes: seq<Shape>, hash: string)
    requires Locate(hash, BuildIdMap(shapes)).slide < |shapes|
    ensures var l := Locate(hash, BuildIdMap(shapes));
      var p := Construct(shapes, hash).value;
      && |p.slides| == |shapes|
      && (forall j :: 0 <= j < l.slide ==> p.slides[j].currentIndex == |shapes[j].itemIds|)
      && (forall j :: l.slide < j < |shapes| ==> p.slides[j].currentIndex == 0)
      && p.slides[l.slide].currentIndex == l.item
      && (l.item <= |shapes[l.slide].itemIds| ==> Inv(p))
      && (l.item <= |shapes[l.slide].itemIds| && WellFormedIds(shapes) ==> Document(p) && Synced(p))
  {
    var p0 := Unsettled(shapes, hash);
    var l := Locate(hash, p0.idMap);
    var p1 := SlideMoveTo(p0, l.slide);
    var p2 := JumpCurrentTo(p1, l.item);
    var p := EndNavigation(p2, false);
    ConstructSteps(shapes, hash);
    assert Shapes(p.slides) == shapes by {
      assert Shapes(p.slides) == Shapes(p0.slides);
    }
    if l.item <= |shapes[l.slide].itemIds| {
      JumpToKeepsValid(p1.slides[l.slide], l.item);
      assert AllValid(p.slides);
    }
  }

  // -----------------------------------------------------------------------
  // An identifier missing from the table

  /** The fragment `#nosuch/1` names an identifier; in a table without it,
      `parseHash` as written fails. */
  lemma UnknownIdFails(idMap: map<string, Locator>)
    requires IdentifierKeys(idMap) && "nosuch" !in idMap
    ensures ParseHash("#nosuch/1", idMap).None?
    ensures Locate("#nosuch/1", idMap) == Locator(0, 0)
  {
    assert IsIdentifier("nosuch");
    assert "#nosuch/1" == "#" + "nosuch" + "/" + "" + "1";
    ParseNamedItem("nosuch", "", "1", idMap);
  }

  /** While a navigation is left open, no event writes the hash. */
  lemma {:induction false} SuppressedRunWritesNothing(p: Pres, cs: seq<Command>)
    requires Ready(p) && p.hashSuppressionCount != 0
    ensures RunAsWritten(p, cs).history == p.history
    decreases |cs|
  {
    if |cs| > 0 {
      var q := StepAsWritten(p, cs[0]);
      if Ready(q) {
        SuppressedRunWritesNothing(q, cs[1..]);
      }
    }
  }

  /** As written: after the browser reports a hash naming an unknown
      identifier (such as `#nosuch/1`), the navigation the handler opened is
      never closed, so no later event writes the hash or adds to history. */
  lemma UnknownIdFreezesHistory(p: Pres, hash: string, cs: seq<Command>)
    requires Ready(p) && ParseHash(hash, p.idMap).None?
    ensures var q := HashChangeAsWritten(p, hash);
      && q.hashSuppressionCount == p.hashSuppressionCount + 1
      && (Ready(q) ==> RunAsWritten(q, cs).history == p.history)
  {
    var q := HashChangeAsWritten(p, hash);
    if Ready(q) {
      SuppressedRunWritesNothing(q, cs);
    }
  }

  /** Corrected: a hash naming an unknown identifier reads as the start, the
      navigation is closed, and the presentation keeps its invariant and its
      address bar in step. */
  lemma UnknownIdFailsClosed(p: Pres, hash: string)
    requires Inv(p) && Document(p) && Synced(p) && ParseHash(hash, p.idMap).None?
    ensures var q := Step(p, HashChanged(hash));
      && q.hashSuppressionCount == 0
      && q.currentSlide == 0 && q.slides[0].currentIndex == 0
      && Inv(q) && Synced(q)
  {
    var c := HashChanged(hash);
    assert Locate(hash, p.idMap) == Locator(0, 0);
    assert Step(p, c) == HashChange(p, hash);
    assert Admissible(p, c);
    StepKeepsInv(p, c);
    StepKeepsSync(p, c);
  }

  /** The fragment `#nosuch` alone fails the same way. */
  lemma BareUnknownIdFails(idMap: map<string, Locator>)
    requires IdentifierKeys(idMap) && "nosuch" !in idMap
    ensures ParseHash("#nosuch", idMap).None?
    ensures Locate("#nosuch", idMap) == Locator(0, 0)
  {
    assert IsIdentifier("nosuch");
    LeadingName("nosuch", "");
    assert "#nosuch"[1..] == "nosuch" + "";
    MatchFromParts("#nosuch", Named("nosuch"), 6, 0);
  }

  /** As written, a page opened at `#nosuch` never gets a presentation;
      corrected, it opens at the start. */
  lemma UnknownIdAtOpening(shapes: seq<Shape>)
    requires |shapes| > 0 && WellFormedIds(shapes) && "nosuch" !in BuildIdMap(shapes)
    ensures ConstructAsWritten(shapes, "#nosuch").None?
    ensures var r := Construct(shapes, "#nosuch");
      && r.Some? && r.value.currentSlide == 0 && r.value.slides[0].currentIndex == 0
  {
    IdMapKeys(shapes);
    BareUnknownIdFails(BuildIdMap(shapes));
    ConstructState(shapes, "#nosuch");
  }
}

=== FILE: slides.dfy ===
/**
  One slide's item-reveal state machine (`Presentation.Slide`): a count of
  displayed items that moves one item at a time toward a target count.
  Each reveal or conceal step hands an item to the animator and waits for
  its completion; the completion re-enters `DoStep`.  The functions here
  return the new slide together with a `Request` telling the owning
  presentation what to do next, so the presentation decides how the hash
  is refreshed and how a move past either end of the slide is carried out.
 */
module Slides {

  /** The fixed part of a slide, read once from the document: the slide
      element's id and its items' ids in document order ("" when the
      element has no id). */
  datatype Shape = Shape(id: string, itemIds: seq<string>)

  /** A slide's navigation state.
      - currentIndex: the number of items displayed, counted from the first;
      - targetIndex: the number that should be displayed once stepping stops;
      - isAnimating: a reveal or conceal step is waiting for its completion,
        so a new target is picked up by that step's completion;
      - shown: the visibility last requested for each item;
      - onStage: whether the slide's container takes part in the layout. */
  datatype Slide = Slide(
    shape: Shape,
    currentIndex: int,
    targetIndex: int,
    isAnimating: bool,
    shown: seq<bool>,
    onStage: bool)
  {
    /** `items.length` */
    function Count(): nat { |shape.itemIds| }

    /** One visibility flag per item. */
    predicate Shaped() { |shown| == Count() }

    /** The displayed count is a real number of items. */
    predicate Counted() { Shaped() && 0 <= currentIndex <= Count() }

    /** The invariant every operation keeps: both counts in range, a slide
        that is not stepping has reached its target, and exactly the first
        `currentIndex` items are shown. */
    predicate Valid()
    {
      && Counted()
      && 0 <= targetIndex <= Count()
      && (!isAnimating ==> currentIndex == targetIndex)
      && forall k :: 0 <= k < |shown| ==> (shown[k] <==> k < currentIndex)
    }

    /** Not stepping and at its target. */
    predicate Settled() { !isAnimating && currentIndex == targetIndex }
  }

  /** What a slide asks of its presentation after an operation.
      Reveal(k)/Conceal(k): the animator was started on item k and will
      report completion; the presentation refreshes its hash.
      ChangeSlide(d): the presentation's `slideMoveBy(d)`.
      Idle: nothing. */
  datatype Request = Idle | Reveal(item: nat) | Conceal(item: nat) | ChangeSlide(offset: int)

  /** The state the slide constructor leaves behind: `clear()` applied to the
      prototype's count of -1, so every item is hidden and nothing steps. */
  function Initial(shape: Shape): (s: Slide)
    ensures s.Valid() && s.Settled() && s.currentIndex == 0 && s.shape == shape
  {
    Slide(shape, 0, 0, false, seq(|shape.itemIds|, k => false), true)
  }

  /** How far the displayed count still is from the target. */
  function Distance(s: Slide): nat
  {
    if s.currentIndex <= s.targetIndex then s.targetIndex - s.currentIndex
    else s.currentIndex - s.targetIndex
  }

  /** `stepBack`: conceal the last displayed item.  The guard is the
      source's; `DoStep` never reaches it. */
  function StepBack(s: Slide): (r: (Slide, Request))
    requires s.Counted()
    ensures s.currentIndex > 0 ==> r.1 == Conceal(s.currentIndex - 1)
    ensures s.currentIndex > 0 ==> r.0.currentIndex == s.currentIndex - 1 && r.0.isAnimating
    ensures s.currentIndex <= 0 ==> r == (s, ChangeSlide(-1))
  {
    if s.currentIndex <= 0 then (s, ChangeSlide(-1))
    else
      var k := s.currentIndex - 1;
      (s.(isAnimating := true, currentIndex := k, shown := s.shown[k := false]), Conceal(k))
  }

  /** `stepForward`: reveal the next item.  The guard is the source's and
      cannot hold for a counted slide. */
  function StepForward(s: Slide): (r: (Slide, Request))
    requires s.Counted()
    requires s.currentIndex < s.Count()
    ensures r.1 == Reveal(s.currentIndex)
    ensures r.0.currentIndex == s.currentIndex + 1 && r.0.isAnimating
  {
    if s.currentIndex > s.Count() then (s, ChangeSlide(1))
    else
      var k := s.currentIndex;
      (s.(isAnimating := true, currentIndex := k + 1, shown := s.shown[k := true]), Reveal(k))
  }

  /** `doStep`: the body of the step loop, run when a step starts and again
      on every completion. */
  function DoStep(s: Slide): (r: (Slide, Request))
    requires s.Counted()
    ensures r.0.Counted() && r.0.shape == s.shape && r.0.targetIndex == s.targetIndex
    ensures r.0.onStage == s.onStage
    // a target outside the slide hands the move to the presentation
    ensures s.targetIndex < 0 ==> r == (s.(isAnimating := false), ChangeSlide(-1))
    ensures s.targetIndex > s.Count() ==> r == (s.(isAnimating := false), ChangeSlide(1))
    // otherwise exactly one item moves toward the target, or the loop ends
    ensures 0 <= s.targetIndex <= s.Count() ==>
      && (r.0.isAnimating <==> s.currentIndex != s.targetIndex)
      && Distance(r.0) == (if Distance(s) == 0 then 0 else Distance(s) - 1)
      && (s.currentIndex < s.targetIndex ==> r.1 == Reveal(s.currentIndex) && r.0.currentIndex == s.currentIndex + 1)
      && (s.currentIndex > s.targetIndex ==> r.1 == Conceal(s.currentIndex - 1) && r.0.currentIndex == s.currentIndex - 1)
      && (s.currentIndex == s.targetIndex ==> r.1 == Idle && r.0.currentIndex == s.currentIndex)
    ensures s.Valid() ==> r.0.Valid()
    ensures s.Valid() ==> !r.1.ChangeSlide?
  {
    var s0 := s.(isAnimating := false);
    if s0.targetIndex < 0 then (s0, ChangeSlide(-1))
    else if s0.targetIndex > s0.Count() then (s0, ChangeSlide(1))
    else if s0.targetIndex < s0.currentIndex then StepBack(s0)
    else if s0.targetIndex > s0.currentIndex then StepForward(s0)
    else (s0, Idle)
  }

  /** `moveTo`: a count outside `[0, items.length]` hands the move to the
      presentation and leaves the slide alone; otherwise the target is set
      and the loop is started unless a running step will pick it up. */
  function MoveTo(s: Slide, index: int): (r: (Slide, Request))
    requires s.Counted()
    ensures r.0.Counted() && r.0.shape == s.shape && r.0.onStage == s.onStage
    ensures index < 0 ==> r == (s, ChangeSlide(-1))
    ensures index > s.Count() ==> r == (s, ChangeSlide(1))
    ensures 0 <= index <= s.Count() ==> r.0.targetIndex == index
    ensures 0 <= index <= s.Count() && s.isAnimating ==> r == (s.(targetIndex := index), Idle)
    ensures 0 <= index <= s.Count() && !s.isAnimating ==> r == DoStep(s.(targetIndex := index))
    ensures 0 <= index <= s.Count() ==> !r.1.ChangeSlide?
    ensures s.Valid() ==> r.0.Valid()
  {
    if index < 0 then (s, ChangeSlide(-1))
    else if index > s.Count() then (s, ChangeSlide(1))
    else
      var s1 := s.(targetIndex := index);
      if !s1.isAnimating then DoStep(s1) else (s1, Idle)
  }

  /** `moveBy`: relative to the target, not to the displayed count, so
      presses made while a step runs add up. */
  function MoveBy(s: Slide, offset: int): (r: (Slide, Request))
    requires s.Counted()
    ensures r.0.Counted() && r.0.shape == s.shape
    ensures s.targetIndex + offset < 0 ==> r == (s, ChangeSlide(-1))
    ensures s.targetIndex + offset > s.Count() ==> r == (s, ChangeSlide(1))
    ensures 0 <= s.targetIndex + offset <= s.Count() ==> r.0.targetIndex == s.targetIndex + offset
    ensures s.Valid() ==> r.0.Valid()
  {
    MoveTo(s, s.targetIndex + offset)
  }

  /** `jumpTo`: set both counts and the items' visibility at once, without
      the animator.  The flag says whether anything changed (the source
      refreshes the hash only then).  The index is not clamped. */
  function JumpTo(s: Slide, index: int): (r: (Slide, bool))
    requires s.Shaped()
    ensures r.0.shape == s.shape && r.0.isAnimating == s.isAnimating && r.0.onStage == s.onStage
    ensures r.0.Shaped()
    ensures r.1 <==> s.currentIndex != index
    ensures r.0.currentIndex == index
    ensures r.1 ==> r.0.targetIndex == index
    ensures r.1 ==> forall k :: 0 <= k < |r.0.shown| ==> (r.0.shown[k] <==> k < index)
    ensures !r.1 ==> r.0 == s
  {
    if s.currentIndex == index then (s, false)
    else
      (s.(targetIndex := index, currentIndex := index, shown := seq(s.Count(), k => k < index)), true)
  }

  /** `clear`: hide every item. */
  function Clear(s: Slide): (r: (Slide, bool))
    requires s.Shaped()
  {
    if s.currentIndex == 0 then (s, false)
    else (s.(shown := seq(s.Count(), k => false), targetIndex := 0, currentIndex := 0), true)
  }

  /** `fill`: show every item. */
  function Fill(s: Slide): (r: (Slide, bool))
    requires s.Shaped()
  {
    if s.currentIndex == s.Count() then (s, false)
    else (s.(shown := seq(s.Count(), k => true), targetIndex := s.Count(), currentIndex := s.Count()), true)
  }

  // -----------------------------------------------------------------------
  // Properties

  /** `clear` and `fill` are `jumpTo` at the two ends of the slide. */
  lemma ClearFillAreJumps(s: Slide)
    requires s.Shaped()
    ensures Clear(s) == JumpTo(s, 0)
    ensures Fill(s) == JumpTo(s, s.Count())
  {
    if s.currentIndex != 0 {
      assert seq(s.Count(), k => false) == seq(s.Count(), k => k < 0);
    }
    if s.currentIndex != s.Count() {
      assert seq(s.Count(), k => true) == seq(s.Count(), (k: int) => k < s.Count());
    }
  }

  /** A jump keeps a valid slide valid whenever the index is a real count. */
  lemma JumpToKeepsValid(s: Slide, index: int)
    requires s.Valid() && 0 <= index <= s.Count()
    ensures JumpTo(s, index).0.Valid()
  {
  }

  /** `jumpTo` is idempotent: a second jump to the same index changes nothing. */
  lemma JumpToIdempotent(s: Slide, index: int)
    requires s.Shaped()
    ensures var (s1, changed1) := JumpTo(s, index);
            JumpTo(s1, index) == (s1, false)
  {
  }

  /** `n` completions delivered to the slide with no other command in
      between: the slide after them and the requests each one produced. */
  function Drive(s: Slide, n: nat): (r: (Slide, seq<Request>))
    requires s.Counted()
    ensures r.0.Counted() && |r.1| == n
    decreases n
  {
    if n == 0 then (s, [])
    else
      var (s1, q) := DoStep(s);
      var (f, qs) := Drive(s1, n - 1);
      (f, [q] + qs)
  }

  /** A stepping slide whose target lies at or after its count is brought to
      its target by exactly `Distance(s) + 1` completions: each of the first
      `Distance(s)` reveals the next item in order and keeps the loop
      running, the last one finds the target reached and stops it. */
  lemma {:induction false} DriveForward(s: Slide)
    requires s.Valid() && s.isAnimating && s.currentIndex <= s.targetIndex
    ensures var (f, qs) := Drive(s, Distance(s) + 1);
            && f.Settled() && f.currentIndex == s.targetIndex && f.Valid()
            && (forall k :: 0 <= k < Distance(s) ==> qs[k] == Reveal(s.currentIndex + k))
            && qs[Distance(s)] == Idle
    decreases Distance(s)
  {
    var (s1, q) := DoStep(s);
    if Distance(s) == 0 {
      assert q == Idle;
    } else {
      assert q == Reveal(s.currentIndex) && s1.currentIndex == s.currentIndex + 1;
      DriveForward(s1);
      var (f, qs) := Drive(s1, Distance(s1) + 1);
      assert Drive(s, Distance(s) + 1) == (f, [q] + qs);
    }
  }

  /** The mirror image: a stepping slide above its target conceals the
      displayed items from the last one down, one per completion. */
  lemma {:induction false} DriveBackward(s: Slide)
    requires s.Valid() && s.isAnimating && s.currentIndex >= s.targetIndex
    ensures var (f, qs) := Drive(s, Distance(s) + 1);
            && f.Settled() && f.currentIndex == s.targetIndex && f.Valid()
            && (forall k :: 0 <= k < Distance(s) ==> qs[k] == Conceal(s.currentIndex - 1 - k))
            && qs[Distance(s)] == Idle
    decreases Distance(s)
  {
    var (s1, q) := DoStep(s);
    if Distance(s) == 0 {
      assert q == Idle;
    } else {
      assert q == Conceal(s.currentIndex - 1) && s1.currentIndex == s.currentIndex - 1;
      DriveBackward(s1);
      var (f, qs) := Drive(s1, Distance(s1) + 1);
      assert Drive(s, Distance(s) + 1) == (f, [q] + qs);
    }
  }

  /** `moveTo(t)` on a settled slide followed by `|t - currentIndex|`
      completions leaves the slide settled at `t`: the first step starts
      inside `moveTo`, every completion but the last starts the next one. */
  lemma MoveToSettles(s: Slide, t: int)
    requires s.Valid() && s.Settled() && 0 <= t <= s.Count()
    ensures var (s1, q) := MoveTo(s, t);
            var (f, qs) := Drive(s1, Distance(s.(targetIndex := t)));
            f.Settled() && f.currentIndex == t && f.Valid()
  {
    var (s1, q) := MoveTo(s, t);
    if t != s.currentIndex {
      assert s1.isAnimating && s1.Valid();
      if s.currentIndex < t {
        DriveForward(s1);
      } else {
        DriveBackward(s1);
      }
      assert Distance(s1) + 1 == Distance(s.(targetIndex := t));
    }
  }

  /** A target change while a step runs is absorbed by that step's loop:
      nothing is displayed differently and no second loop starts. */
  lemma MoveWhileAnimatingIsAbsorbed(s: Slide, offset: int)
    requires s.Valid() && s.isAnimating && 0 <= s.targetIndex + offset <= s.Count()
    ensures MoveBy(s, offset) == (s.(targetIndex := s.targetIndex + offset), Idle)
  {
  }
}
